=== FILE: README.md ===
# Dungeon crawler grid logic in Dafny

A model of the grid logic of a small browser dungeon crawler, together
with proofs about it. The game is built from an ASCII map in which
`'#'` is a wall, `' '` is floor, `'@'` is the player, `'1'` is a goblin
and `'*'` is a pile of gold. Two iterations of the game exist. The newer
one is in `scripts/`. The older single-file one is `script.js`. Both are
modelled.

Modules:

- `Grid`: cells, the map as `seq<string>`, `DELTAS`, and the `map[y][x]`
  lookup. `None` stands for JavaScript `undefined`.
- `Scan`: the row-major marker scan shared by both map parsers. The
  newer parser scans `maxX` columns of every row. The older one scans
  each row up to its own length.
- `Objects`: the player, goblin and gold objects, the `STATS` records, the
  `Gold` constructor and `checkCollision`.
- `Dungeon`: the newer `Dungeon` constructor scan, `canMoveTo` and
  `getObjectAt`. An object is identified by its index in the object list.
- `Movement`: `Character.move` and `Player.pickUp`, as a state machine
  over the object list. It covers positions, the splice of a picked-up
  pile and the player's `gold`.
- `Visibility`: `_findVisibleTiles`, the breadth-first field-of-view
  flood with its line test. The flood is an imperative loop over a queue
  and a `map<(int, int), bool>` standing for `visitedTiles`.
- `Camera`: `Game._findOffset`, the key-press step (a move followed by the
  redraw's scroll), and the pixel-to-tile mapping of `Game.click`.
- `Legacy`: `isBlocked`, the position-only `Character.move`,
  `_findObjects` and the camera with 40-pixel tiles from `script.js`.

`Math.round(i / length * d)` is modelled as
`floor((2 i d + length) / (2 length))`: the exact rational value rounded
to the nearest integer, halves up as `Math.round` does. This assumes the
floating-point product rounds like the exact one, which fails on some
half-way samples (see Visibility.RoundedOffsetIsRound under "Left out").
The camera thresholds `960 * 0.8`, `960 * 0.2`,
`640 * 0.8` and `640 * 0.2` are exactly the integers 768, 192, 512 and
128, so the camera is all integers. Reading `map[y][x]` on a missing row
raises a `TypeError` in the source. The flood model returns this as
`RowUndefined(y)`.

## Model

| member | source | states |
|---|---|---|
| Grid.Deltas | scripts/utils.js:1 | four distinct unit steps of taxicab length 1, in the order left, down, right, up |
| Objects.CheckCollision | scripts/utils.js:3-10 | the result is the lowest index whose object stands on `(x, y)`, and it is `undefined` exactly when no object stands there; the list is a value, so the lookup cannot change it |
| Objects.CollisionIsUnique | scripts/utils.js:3-10 | when no two objects share a cell, the lookup finds the one object standing on it |
| Objects.NewGold | scripts/game-objects.js:113-118 | gold has `canPickUp`, is not a character, stands on `(x, y)` and carries the amount it was given |
| Objects.NewPlayer | scripts/game-objects.js:18-25 | a player stands on `(x, y)` with every stat of the record copied; it has `pickUp` and cannot itself be picked up |
| Objects.NewGoblin | scripts/game-objects.js:18-25 | a goblin stands on `(x, y)` with every stat of the record copied; it has no `pickUp` and cannot be picked up |
| Scan.Find | scripts/index.js:46-58 | the scan yields the wanted cells in reading order, so no cell twice; a cell is listed exactly when the scan visits it and its character is wanted |
| Dungeon.Spawn | scripts/index.js:49-57 | the object made for a marker cell stands on it and is of the marker's kind, with `STATS.player`, `STATS.goblin` or amount 25 |
| Dungeon.LastPlayer | scripts/index.js:49-51 | the index found holds a player and no later object is a player; there is none exactly when the list has no player |
| Dungeon.Parse | scripts/index.js:39-59 | one object per `'@'`, `'1'` or `'*'` in the first `maxX = map[0].length` columns of every row, in reading order, so no two objects share a cell; each object is of the kind its cell's marker says; `this.player` is the last player object |
| Dungeon.ParsePlayerIsLastAt | scripts/index.js:46-59 | `this.player` stands on a scanned `'@'` and every other scanned `'@'` comes earlier in reading order; there is no player exactly when the scanned columns hold no `'@'` |
| Dungeon.CanMoveTo | scripts/index.js:168-192 | `false` exactly when out of bounds, on `'#'`, or when the first object on the cell cannot be picked up; the item itself when that first object can be; `true` exactly on an in-bounds non-wall cell with no object |
| Dungeon.GetObjectAt | scripts/index.js:194-213 | `null` exactly out of bounds, `'Wall'` exactly on an in-bounds `'#'`, the first object on another in-bounds cell, `'Floor'` exactly on an in-bounds non-wall cell with no object |
| Dungeon.CanMoveToAgreesWithGetObjectAt | scripts/index.js:168-213 | the two queries classify every cell alike: a move is refused exactly where the lookup gives `null`, `'Wall'` or an object that cannot be picked up, and returns an item exactly where the lookup gives that pickable item |
| Movement.Move | scripts/game-objects.js:27-40 | when `canMoveTo` is falsy nothing changes; otherwise the mover stands on exactly `(x + dx, y + dy)` and keeps its kind; onto floor, or a goblin onto gold, only the mover changes; a player onto gold leaves the other objects in their relative order, removes the pile and adds its amount to the player's gold; `this.player` is a reference, so after any pickup it still names the same object: the mover's new index when the player moved, otherwise the player's index shifted down past the pile |
| Movement.StepAndPickUp | scripts/game-objects.js:32-36 | the player's step followed by `pickUp` on a pile: the pile leaves the list, the player stands on the new cell with the pile's amount added to its gold, every other object keeps its relative order, and `this.player` keeps naming the same object |
| Movement.PickUp | scripts/game-objects.js:57-63 | a result without `canPickUp` changes nothing; a pickable item is spliced out, every other object keeps its relative order, and the player's gold grows by the item's amount; `this.player` keeps naming the same object, so its index shifts down past the item when another player picks it up |
| Movement.Take | scripts/game-objects.js:58-61 | the pile leaves the list, the player's gold grows by its amount, every other object keeps its relative order, and `this.player` keeps naming the same object: the player's index moves down exactly when the pile stood before it |
| Movement.AddGold | scripts/game-objects.js:59 | `gold` grows by exactly the amount, and the position and every other stat are kept |
| Movement.RemoveAt | scripts/game-objects.js:60-61 | `splice(index, 1)` drops exactly one element and keeps the others in order |
| Movement.MoveKeepsGrounded | scripts/game-objects.js:27-33 | if every character stands in bounds on a non-wall cell, they all still do after any move |
| Movement.PlayerMoveKeepsOnePerCell | scripts/game-objects.js:27-62 | a player's move keeps "at most one object per cell", because it only enters an empty cell or the cell of the pile it then removes |
| Movement.MoveConservesGold | scripts/game-objects.js:57-62 | no move of a goblin or of a player with a purse creates or destroys gold: the floor piles plus the purses add up to the same total |
| Movement.GoblinLeavesGold | scripts/game-objects.js:35-37 | a goblin has no `pickUp`, so after it steps onto gold the pile is still in the list, under the goblin |
| Visibility.LineLength | scripts/index.js:122 | the line length is the larger of `abs(dx)` and `abs(dy)` |
| Visibility.RoundedOffsetIsRound | scripts/index.js:126-128 | the rounded sample is the integer nearest to `i d / length`, with halves rounded up |
| Visibility.SampleEnds | scripts/index.js:119-128 | the sampled line starts at the candidate tile (`i = 0`) and ends on the player (`i = length`) |
| Visibility.SampleMajorAxis | scripts/index.js:122-128 | along the longer axis, whether that is x or y (either one when they tie), the line advances exactly one cell per sample, towards the target |
| Visibility.TestLine | scripts/index.js:124-133 | `visible` is true exactly when every inner sample `1 <= i < length` is marked `true` in `visitedTiles` |
| Visibility.Fresh | scripts/index.js:149-162 | the cells queued around a tile are its admitted neighbours not yet in `visitedTiles`, each once; a neighbour is queued exactly when it is admitted and unseen |
| Visibility.Expand | scripts/index.js:148-162 | the queue grows by exactly the fresh neighbours; each is entered in `visitedTiles` as `false`, old entries are unchanged, and every admitted neighbour is then a key |
| Visibility.Flood | scripts/index.js:102-166 | the player's cell comes first, followed by all its admitted neighbours in `DELTAS` order; no tile is listed twice; a listed floor tile had every inner point of its line already found visible; every listed tile but the player's is next to an earlier opened tile; every wall next to an opened tile is listed; a player on a wall sees only itself; a missing row is read only at the player's row or, with the inclusive bound, at row `maxY` |
| Visibility.FindVisibleTiles | scripts/index.js:102-166 | the flood as written: apart from the player's cell, shown tiles lie in `0 <= x <= maxX` on existing rows; the list has no duplicates, every non-wall tile in it has a clear line to the player through earlier tiles, every tile but the player's was reached from an earlier opened tile, and every wall next to an opened tile is listed; a player on floor in the bottom row always makes it read the missing row `map[maxY]` |
| Visibility.FindVisibleTilesInGrid | scripts/index.js:153 | with the bound `x2 < maxX`, `y2 < maxY` every shown tile lies in the map, the player's in-map neighbours come right after the player's cell in `DELTAS` order, the list has no duplicates, every non-wall tile in it has a clear line to the player, every tile but the player's was reached from an earlier opened tile, every in-map wall next to an opened tile is listed, and a missing row is read only when the player's own row is missing |
| Visibility.OneRowMapReadsMissingRow | scripts/index.js:136 | the map `["@"]` puts the player on floor in the bottom row, where the flood as written reads `map[1]` |
| Camera.ThresholdValues | scripts/index.js:275-283 | the scroll thresholds are exactly 768 and 192 horizontally, 512 and 128 vertically |
| Camera.ScreenTiles | scripts/index.js:41-42 | `Math.ceil(extent / tile)` is the least number of tiles that covers the extent |
| Camera.ScreenTileValues | scripts/index.js:41-42 | the newer screen is 27 by 18 tiles and the older one 24 by 16 |
| Camera.Scroll | scripts/index.js:275-279 | the offset moves by at most 1; it goes up exactly when the player is drawn past the upper threshold and the offset is below `maxOffset`; otherwise it goes down exactly when the player is drawn under the lower threshold and the offset is above 0; between the thresholds it stays put |
| Camera.FindOffset | scripts/index.js:271-286 | on each axis the offset moves up by one when the player is drawn past 80% of the canvas and the offset is below its `maxOffset`, otherwise down by one when the player is drawn under 20% and the offset is above 0, and in every other case it stays put; it moves by at most 1, never below 0 and never past `maxOffset`; the bounds stay unchanged |
| Camera.ScrollKeepsPlayerOnScreen | scripts/index.js:271-286 | after a step of at most one tile inside the map, the scrolled offset stays in range and the player's tile is still drawn on the canvas |
| Camera.NewGame | scripts/index.js:247-256 | the game holds the parsed dungeon, `maxOffset` is the map size less the screen size, and the first draw's `_findOffset` from `(0, 0)` sets an offset to 1 exactly when the player is drawn past 80% of the canvas on that axis and `maxOffset` is above 0, and leaves it at 0 otherwise; without an `'@'` there is no player to draw |
| Camera.NewGameIsPlayable | scripts/index.js:289-290 | a player who starts on the first screen is on open ground and on the canvas after the first draw |
| Camera.PressArrow | scripts/index.js:258-261 | a refused arrow key changes nothing; otherwise the player stands on the target tile and the view has had one `_findOffset` for that tile; the new dungeon is exactly what `Movement.Move` gives for the player, so its object list and purses change only as a move does |
| Camera.PressArrowKeepsPlayable | scripts/index.js:271-286 | every one-tile arrow key keeps the characters on open ground, the offsets in range and the player on the canvas |
| Camera.ClickFindsDrawnTile | scripts/index.js:264-265 | every pixel of the square where a tile is drawn maps back to that tile |
| Camera.ClickReportsDrawnTile | scripts/index.js:263-269 | a click anywhere on a drawn tile reports what `getObjectAt` gives for that tile |
| Legacy.IsBlocked | script.js:81-90 | blocked whenever out of bounds; in bounds, blocked exactly when the character is not `' '`, which includes markers and columns past a short row's end |
| Legacy.Move | script.js:117-125 | the position changes only when the target is unblocked, and then by exactly `(dx, dy)` onto an in-bounds floor cell |
| Legacy.WalkEndsOnFloor | script.js:117-125 | after any sequence of moves the character is where it started or on an in-bounds `' '` cell |
| Legacy.NeverReentersStart | script.js:120-122 | a character that starts on its `'@'` cell and has once left it never stands on it again |
| Legacy.Sort | script.js:51-57 | enemies and gold are kept in reading order, and a cell is listed exactly when it holds `'1'`, respectively `'*'` |
| Legacy.SortPlayerIsLast | script.js:51-52 | `objects.player` is the last `'@'` in reading order, and it is absent exactly when there is no `'@'` |
| Legacy.FindObjects | script.js:42-60 | with every row scanned to its own length, enemies and gold are exactly the `'1'` and `'*'` cells in reading order, and the player is the last `'@'` (absent exactly when there is none) |
| Legacy.OpenInBothVersions | script.js:81-90 | a cell the older version lets a character onto is in bounds, not a wall, and free for `canMoveTo` in the dungeon loaded from the same map |
| Legacy.ShortRowDiffers | script.js:85-89 | on any map, an in-bounds cell past its row's end is blocked by the older version, while `canMoveTo` in the dungeon loaded from that map finds it free |
| Legacy.LegacyScrollKeepsPlayerOnScreen | script.js:240-255 | with 40-pixel tiles, each offset still moves by at most 1 within range and keeps a player who steps one tile at a time on the canvas |

## Left out

- Canvas drawing, `InputHandler`, the `UI` sidebar and the `load` listeners are rendering and DOM side effects. Each `game.draw()` is modelled only through the `_findOffset` it performs.
- `scripts/TextParticle.js` and its float animation are not part of this model. Its `randRange` is defined in none of the files.
- Of `scripts/game-data.js` only `STATS` and the tile size are used, as the constants `PlayerStats`, `GoblinStats` and 36. Its map is not modelled: every member takes the map as a parameter.
- The `name` and `r` fields set by the constructors, and the `game` back-reference, are not modelled. They feed only drawing and the sidebar.
- The `script.js` `Game` constructor (script.js:222-230) is left out. It relies on `enemies.goblin`, which none of the files defines. The older version's gold is recorded by position only. Its `new Gold(x, y)` passes arguments shifted against `constructor(game, x, y)`, and the shift cancels out in `super`.
- Combat, turns and enemy AI appear in none of the modelled files. Movement.Move covers goblins only because `move` is defined on every character.
- Movement.AddGold: a player whose record has no `gold` key gets `NaN` from `undefined + amount` in JavaScript. The model keeps the key absent, and Movement.MoveConservesGold requires a moving player's purse to exist.
- Visibility.RoundedOffsetIsRound: it states exact rational rounding, and the line test is built on it. The source computes `Math.round((i / length) * d)` in binary floating point, and the model assumes that rounds the same way. It does not on some samples whose exact value is a half: with length 22, i = 15 and d = 11, `(15 / 22) * 11` evaluates to 7.499999999999999 and `Math.round` gives 7, where the model gives 8. Lengths 26 (i = 15, d = 13), 28 (i = 18, d = -21) and 38 (i = 21, d = -19) give other such cases. On those lines the model can sample a different tile than the source.
- Visibility.Flood: it states why each listed tile was listed, plus the completeness facts for walls and for the player's neighbours. It does not characterise which hidden floor tiles the order-dependent line test lets through.
- Visibility.Expand: the source tests each neighbour against `visitedTiles` as updated by earlier turns of its `for` loop. The model tests against the entries from before the loop. The four neighbours are distinct, so both give the same list.
- Dungeon.Parse: requires a non-empty map, because `map[0].length` throws on an empty one. The members built on `maxX` or on a loaded dungeon require the same. Scan.Find and Legacy.FindObjects do not: they only walk the rows, and an empty map gives no cells.
- Camera.NewGame: without an `'@'` the source's first draw throws on `this.dungeon.player.x`. The model returns `None`.
- Camera.PressArrow: the model requires a player, because the key handler calls `move` on `this.dungeon.player`.

## Findings

| source | as written | input that shows it | evidently intended | confidence | as-written member | corrected member |
|---|---|---|---|---|---|---|
| scripts/index.js:153 | neighbours are queued while `x2 <= this.maxX && y2 <= this.maxY`, one column and one row past the map, and the wall test at line 136 then reads `this.map[y2]` for `y2 == maxY`, which is `undefined`, so `[x]` throws a `TypeError` | the map `["@"]`: the player at `(0, 0)` queues `(0, 1)`, and popping it reads `map[1][0]` | `x2 < this.maxX && y2 < this.maxY`, the bound `canMoveTo` uses | not executed | Visibility.FindVisibleTiles (with Visibility.OneRowMapReadsMissingRow) | Visibility.FindVisibleTilesInGrid |

=== FILE: camera.dfy ===
/** The `Game` of the newer version: the scrolling camera of
    `_findOffset`, the key-press step (a move followed by the redraw's
    scroll) and the click-to-tile mapping.  The camera arithmetic is
    shared with the older version, which uses a different tile size. */
module Camera {
  import opened Grid
  import opened Objects
  import opened Dungeon
  import opened Movement

  const CanvasWidth: int := 960
  const CanvasHeight: int := 640

  /** `TILE_SIZE` of the newer version. */
  const TileSize: int := 36

  /** `TILE_SIZE` of the older version. */
  const LegacyTileSize: int := 40

  /** `extent * 0.8` and `extent * 0.2`: for 960 and 640 these doubles are
      exactly the integers 768, 192, 512 and 128. */
  function Upper(extent: int): int
  {
    extent * 4 / 5
  }

  function Lower(extent: int): int
  {
    extent / 5
  }

  lemma ThresholdValues()
    ensures Upper(CanvasWidth) == 768 && Lower(CanvasWidth) == 192
    ensures Upper(CanvasHeight) == 512 && Lower(CanvasHeight) == 128
  {
  }

  /** `Math.ceil(extent / tile)`: the number of tiles that fit on screen,
      the last one possibly cut off. */
  function ScreenTiles(extent: nat, tile: nat): (n: nat)
    requires tile > 0
    ensures (n - 1) * tile < extent <= n * tile
  {
    (extent + tile - 1) / tile
  }

  lemma ScreenTileValues()
    ensures ScreenTiles(CanvasWidth, TileSize) == 27 && ScreenTiles(CanvasHeight, TileSize) == 18
    ensures ScreenTiles(CanvasWidth, LegacyTileSize) == 24 && ScreenTiles(CanvasHeight, LegacyTileSize) == 16
  {
  }

  /** The player is drawn past the upper threshold and the view can
      still scroll forward. */
  predicate PastUpper(extent: int, tile: int, pos: int, offset: int, maxOffset: int)
  {
    (pos - offset) * tile > Upper(extent) && offset < maxOffset
  }

  /** The player is drawn short of the lower threshold and the view can
      still scroll back. */
  predicate ShortOfLower(extent: int, tile: int, pos: int, offset: int)
  {
    (pos - offset) * tile < Lower(extent) && offset > 0
  }

  /** One axis of `_findOffset`: `pos` is the player's tile coordinate,
      `(pos - offset) * tile` its pixel position on screen. */
  function Scroll(extent: int, tile: int, pos: int, offset: int, maxOffset: int): (r: int)
    ensures offset - 1 <= r <= offset + 1
    ensures r > offset ==> r <= maxOffset && (pos - offset) * tile > Upper(extent)
    ensures r < offset ==> r >= 0 && (pos - offset) * tile < Lower(extent)
    ensures Lower(extent) <= (pos - offset) * tile <= Upper(extent) ==> r == offset
    ensures PastUpper(extent, tile, pos, offset, maxOffset) ==> r == offset + 1
    ensures !PastUpper(extent, tile, pos, offset, maxOffset) && ShortOfLower(extent, tile, pos, offset)
      ==> r == offset - 1
  {
    var p := (pos - offset) * tile;
    if p > Upper(extent) && offset < maxOffset then offset + 1
    else if p < Lower(extent) && offset > 0 then offset - 1
    else offset
  }

  datatype View = View(offsetX: int, offsetY: int, maxOffsetX: int, maxOffsetY: int)

  /** `_findOffset()` for a player standing on `(px, py)`. */
  function FindOffset(tile: int, v: View, px: int, py: int): (v': View)
    ensures v'.maxOffsetX == v.maxOffsetX && v'.maxOffsetY == v.maxOffsetY
    ensures Abs(v'.offsetX - v.offsetX) <= 1 && Abs(v'.offsetY - v.offsetY) <= 1
    ensures v'.offsetX < v.offsetX ==> v'.offsetX >= 0
    ensures v'.offsetY < v.offsetY ==> v'.offsetY >= 0
    ensures v'.offsetX > v.offsetX ==> v'.offsetX <= v.maxOffsetX
    ensures v'.offsetY > v.offsetY ==> v'.offsetY <= v.maxOffsetY
    ensures PastUpper(CanvasWidth, tile, px, v.offsetX, v.maxOffsetX) ==> v'.offsetX == v.offsetX + 1
    ensures PastUpper(CanvasHeight, tile, py, v.offsetY, v.maxOffsetY) ==> v'.offsetY == v.offsetY + 1
    ensures !PastUpper(CanvasWidth, tile, px, v.offsetX, v.maxOffsetX) && ShortOfLower(CanvasWidth, tile, px, v.offsetX)
      ==> v'.offsetX == v.offsetX - 1
    ensures !PastUpper(CanvasHeight, tile, py, v.offsetY, v.maxOffsetY) && ShortOfLower(CanvasHeight, tile, py, v.offsetY)
      ==> v'.offsetY == v.offsetY - 1
    ensures !PastUpper(CanvasWidth, tile, px, v.offsetX, v.maxOffsetX) && !ShortOfLower(CanvasWidth, tile, px, v.offsetX)
      ==> v'.offsetX == v.offsetX
    ensures !PastUpper(CanvasHeight, tile, py, v.offsetY, v.maxOffsetY) && !ShortOfLower(CanvasHeight, tile, py, v.offsetY)
      ==> v'.offsetY == v.offsetY
  {
    v.(offsetX := Scroll(CanvasWidth, tile, px, v.offsetX, v.maxOffsetX),
       offsetY := Scroll(CanvasHeight, tile, py, v.offsetY, v.maxOffsetY))
  }

  /** An offset that has only ever moved by `_findOffset` from 0: never
      negative, and above 0 only when at most `maxOffset`. */
  predicate OffsetInRange(offset: int, maxOffset: int)
  {
    0 <= offset && (offset <= maxOffset || offset == 0)
  }

  /** The player's tile is drawn on the canvas along one axis. */
  predicate OnScreen(extent: int, tile: int, pos: int, offset: int)
  {
    0 <= pos - offset && (pos - offset) * tile < extent
  }

  /** A product with a positive factor has the sign of the other factor. */
  lemma MulSign(s: int, tile: int)
    requires tile > 0
    ensures s * tile > 0 ==> s > 0
    ensures s * tile >= 0 ==> s >= 0
  {
    if s < 0 {
      MulMonotone(s, -1, tile);
    }
  }

  /** The scroll moved the view one tile forward: the player, now one
      tile further back on the canvas, is still on it. */
  lemma ScrollForward(extent: nat, tile: nat, pos: int, pos': int, offset: int)
    requires 0 < tile && OnScreen(extent, tile, pos, offset)
    requires pos' - pos <= 1 && (pos' - offset) * tile > Upper(extent) && Upper(extent) >= 0
    ensures OnScreen(extent, tile, pos', offset + 1)
  {
    var s := pos' - offset;
    MulSign(s, tile);
    MulMonotone(s - 1, pos - offset, tile);
  }

  /** The scroll moved the view one tile back: the player, now one tile
      further on on the canvas, is still on it. */
  lemma ScrollBack(extent: nat, tile: nat, pos: int, pos': int, offset: int)
    requires 0 < tile <= Lower(extent) && OnScreen(extent, tile, pos, offset)
    requires pos' - pos >= -1 && (pos' - offset) * tile < Lower(extent)
    ensures OnScreen(extent, tile, pos', offset - 1)
  {
    var s := pos' - offset;
    assert (s + 1) * tile == s * tile + tile;
  }

  /** The view stayed where it was. */
  lemma ScrollStays(extent: nat, tile: nat, pos': int, offset: int, maxOffset: int)
    requires 0 < tile <= Lower(extent) && Upper(extent) < extent
    requires OffsetInRange(offset, maxOffset)
    requires 0 <= pos' < maxOffset + ScreenTiles(extent, tile)
    requires Scroll(extent, tile, pos', offset, maxOffset) == offset
    ensures OnScreen(extent, tile, pos', offset)
  {
    var n := ScreenTiles(extent, tile);
    var s := pos' - offset;
    MulSign(s, tile);
    if s * tile > Upper(extent) {
      MulMonotone(s, n - 1, tile);
    }
  }

  /** One axis of the camera: after the player takes a step of at most
      one tile to a position inside the map, a scroll keeps the offset in
      range and the player on the canvas. */
  lemma ScrollKeepsPlayerOnScreen(extent: nat, tile: nat, pos: int, pos': int, offset: int, maxOffset: int)
    requires 0 < tile <= Lower(extent) && Upper(extent) < extent
    requires OffsetInRange(offset, maxOffset) && OnScreen(extent, tile, pos, offset)
    requires -1 <= pos' - pos <= 1
    requires 0 <= pos' < maxOffset + ScreenTiles(extent, tile)
    ensures OffsetInRange(Scroll(extent, tile, pos', offset, maxOffset), maxOffset)
    ensures OnScreen(extent, tile, pos', Scroll(extent, tile, pos', offset, maxOffset))
  {
    var r := Scroll(extent, tile, pos', offset, maxOffset);
    if r == offset + 1 {
      ScrollForward(extent, tile, pos, pos', offset);
    } else if r == offset - 1 {
      ScrollBack(extent, tile, pos, pos', offset);
    } else {
      ScrollStays(extent, tile, pos', offset, maxOffset);
    }
  }

  /** The game: the dungeon and the camera offsets. */
  datatype Game = Game(dungeon: Dungeon, view: View)

  /** `new Game(map)` followed by the first `game.draw()`.  Without an
      `'@'` the draw reads the position of an undefined player, which is
      `None` here. */
  function NewGame(grid: Map): (g: Option<Game>)
    requires |grid| > 0
    ensures g.Some? <==> Parse(grid).player.Some?
    ensures g.Some? ==> g.value.dungeon == Parse(grid)
    ensures g.Some? ==>
      && g.value.view.maxOffsetX == MaxX(grid) - ScreenTiles(CanvasWidth, TileSize)
      && g.value.view.maxOffsetY == MaxY(grid) - ScreenTiles(CanvasHeight, TileSize)
      && 0 <= g.value.view.offsetX <= 1 && 0 <= g.value.view.offsetY <= 1
    ensures g.Some? ==>
      var d := Parse(grid);
      var p := d.objects[d.player.value];
      var v := g.value.view;
      && v.offsetX == (if PastUpper(CanvasWidth, TileSize, p.x, 0, v.maxOffsetX) then 1 else 0)
      && v.offsetY == (if PastUpper(CanvasHeight, TileSize, p.y, 0, v.maxOffsetY) then 1 else 0)
  {
    var d := Parse(grid);
    match d.player
    case None => None
    case Some(p) =>
      var v := View(0, 0, MaxX(grid) - ScreenTiles(CanvasWidth, TileSize),
                    MaxY(grid) - ScreenTiles(CanvasHeight, TileSize));
      Some(Game(d, FindOffset(TileSize, v, d.objects[p].x, d.objects[p].y)))
  }

  /** An arrow key: `player.move(dx, dy)`, whose successful move ends in
      `game.draw()` and so in one `_findOffset`. */
  function PressArrow(g: Game, dx: int, dy: int): (g': Game)
    requires Valid(g.dungeon) && g.dungeon.player.Some?
    ensures Valid(g'.dungeon) && g'.dungeon.player.Some?
    ensures g'.dungeon.grid == g.dungeon.grid
    ensures g'.dungeon == Move(g.dungeon, g.dungeon.player.value, dx, dy).dungeon
    ensures var p := g.dungeon.objects[g.dungeon.player.value];
      CanMoveTo(g.dungeon, p.x + dx, p.y + dy).Blocked? ==> g' == g
    ensures var p := g.dungeon.objects[g.dungeon.player.value];
      var p' := g'.dungeon.objects[g'.dungeon.player.value];
      !CanMoveTo(g.dungeon, p.x + dx, p.y + dy).Blocked? ==>
        p'.At(p.x + dx, p.y + dy) && g'.view == FindOffset(TileSize, g.view, p'.x, p'.y)
  {
    var who := g.dungeon.player.value;
    var p := g.dungeon.objects[who];
    var r := Move(g.dungeon, who, dx, dy);
    if CanMoveTo(g.dungeon, p.x + dx, p.y + dy).Blocked? then g
    else
      var p' := r.dungeon.objects[r.dungeon.player.value];
      Game(r.dungeon, FindOffset(TileSize, g.view, p'.x, p'.y))
  }

  /** The game state every key press keeps. */
  predicate Playable(g: Game)
  {
    && Valid(g.dungeon) && g.dungeon.player.Some?
    && Grounded(g.dungeon.grid, g.dungeon.objects)
    && g.view.maxOffsetX == MaxX(g.dungeon.grid) - ScreenTiles(CanvasWidth, TileSize)
    && g.view.maxOffsetY == MaxY(g.dungeon.grid) - ScreenTiles(CanvasHeight, TileSize)
    && OffsetInRange(g.view.offsetX, g.view.maxOffsetX)
    && OffsetInRange(g.view.offsetY, g.view.maxOffsetY)
    && var p := g.dungeon.objects[g.dungeon.player.value];
    && OnScreen(CanvasWidth, TileSize, p.x, g.view.offsetX)
    && OnScreen(CanvasHeight, TileSize, p.y, g.view.offsetY)
  }

  /** Every object the constructor places stands inside the map on a
      marker cell, which is never a wall. */
  lemma ParseIsGrounded(grid: Map)
    requires |grid| > 0
    ensures Grounded(grid, Parse(grid).objects)
  {
    var objs := Parse(grid).objects;
    forall j | 0 <= j < |objs| && objs[j].IsCharacter()
      ensures InBounds(grid, objs[j].x, objs[j].y) && !IsWall(grid, Position(objs[j]))
    {
      assert Position(objs[j]) in Positions(objs);
    }
  }

  /** A game whose player starts on the first screen is playable after
      the first draw. */
  lemma NewGameIsPlayable(grid: Map)
    requires |grid| > 0
    requires NewGame(grid).Some?
    requires var d := Parse(grid); var p := d.objects[d.player.value];
      p.x * TileSize < CanvasWidth && p.y * TileSize < CanvasHeight
    ensures Playable(NewGame(grid).value)
  {
    var d := Parse(grid);
    var p := d.objects[d.player.value];
    ParseIsGrounded(grid);
    assert InBounds(grid, p.x, p.y);
    var maxX := MaxX(grid) - ScreenTiles(CanvasWidth, TileSize);
    var maxY := MaxY(grid) - ScreenTiles(CanvasHeight, TileSize);
    ScrollKeepsPlayerOnScreen(CanvasWidth, TileSize, p.x, p.x, 0, maxX);
    ScrollKeepsPlayerOnScreen(CanvasHeight, TileSize, p.y, p.y, 0, maxY);
  }

  /** A one-tile key press keeps every character on open ground inside
      the map, the offsets in range and the player drawn on the canvas. */
  lemma PressArrowKeepsPlayable(g: Game, dx: int, dy: int)
    requires Playable(g)
    requires Abs(dx) + Abs(dy) <= 1
    ensures Playable(PressArrow(g, dx, dy))
  {
    var d := g.dungeon;
    var who := d.player.value;
    var p := d.objects[who];
    MoveKeepsGrounded(d, who, dx, dy);
    if !CanMoveTo(d, p.x + dx, p.y + dy).Blocked? {
      var g' := PressArrow(g, dx, dy);
      var p' := g'.dungeon.objects[g'.dungeon.player.value];
      assert p'.IsCharacter();
      ScrollKeepsPlayerOnScreen(CanvasWidth, TileSize, p.x, p'.x, g.view.offsetX, g.view.maxOffsetX);
      ScrollKeepsPlayerOnScreen(CanvasHeight, TileSize, p.y, p'.y, g.view.offsetY, g.view.maxOffsetY);
    }
  }

  /** `Math.floor(pixel / TILE_SIZE) + offset`. */
  function ClickTile(tile: int, pixel: int, offset: int): int
    requires tile > 0
  {
    pixel / tile + offset
  }

  /** Where `draw` puts the tile with coordinate `t`. */
  function DrawnAt(tile: int, t: int, offset: int): int
  {
    (t - offset) * tile
  }

  /** Clicking any pixel of a drawn tile selects that tile. */
  lemma ClickFindsDrawnTile(tile: int, t: int, offset: int, k: int)
    requires 0 <= k < tile
    ensures ClickTile(tile, DrawnAt(tile, t, offset) + k, offset) == t
  {
    var q := t - offset;
    var a := q * tile + k;
    assert a == tile * (a / tile) + a % tile;
    if a / tile < q {
      MulMonotone(a / tile + 1, q, tile);
    } else if a / tile > q {
      MulMonotone(q + 1, a / tile, tile);
    }
  }

  /** `click(x, y)`: what `getObjectAt` reports for the tile under the
      pixel (the sidebar update itself is not modelled). */
  function Click(g: Game, x: int, y: int): Lookup
    requires |g.dungeon.grid| > 0
  {
    GetObjectAt(g.dungeon, ClickTile(TileSize, x, g.view.offsetX), ClickTile(TileSize, y, g.view.offsetY))
  }

  /** A click anywhere on the square where tile `(tx, ty)` is drawn
      reports what stands on that tile. */
  lemma ClickReportsDrawnTile(g: Game, tx: int, ty: int, kx: int, ky: int)
    requires |g.dungeon.grid| > 0
    requires 0 <= kx < TileSize && 0 <= ky < TileSize
    ensures Click(g, DrawnAt(TileSize, tx, g.view.offsetX) + kx, DrawnAt(TileSize, ty, g.view.offsetY) + ky)
            == GetObjectAt(g.dungeon, tx, ty)
  {
    ClickFindsDrawnTile(TileSize, tx, g.view.offsetX, kx);
    ClickFindsDrawnTile(TileSize, ty, g.view.offsetY, ky);
  }
}

=== FILE: dungeon.dfy ===
/** The newer `Dungeon` class: construction from the ASCII map and the
    two occupancy queries `canMoveTo` and `getObjectAt`. */
module Dungeon {
  import opened Grid
  import opened Scan
  import opened Objects

  /** The map, the object list in construction order, and `this.player`
      as the index of that object in the list (`None` when the map has
      no `'@'`, where the source leaves `this.player` undefined). */
  datatype Dungeon = Dungeon(grid: Map, objects: seq<Obj>, player: Option<nat>)

  predicate Valid(d: Dungeon)
  {
    && |d.grid| > 0
    && (d.player.Some? ==> d.player.value < |d.objects| && d.objects[d.player.value].Player?)
  }

  function Position(o: Obj): Cell
  {
    (o.x, o.y)
  }

  function Positions(objs: seq<Obj>): (ps: seq<Cell>)
    ensures |ps| == |objs|
    ensures forall i :: 0 <= i < |objs| ==> ps[i] == Position(objs[i])
  {
    seq(|objs|, i requires 0 <= i < |objs| => Position(objs[i]))
  }

  /** The characters the constructor turns into objects. */
  function Markers(): set<char>
  {
    {'@', '1', '*'}
  }

  /** The object one marker cell produces. */
  function Spawn(grid: Map, c: Cell): (o: Obj)
    requires Holds(grid, FirstRowWidth, Markers(), c.0, c.1)
    ensures Position(o) == c && KindMatches(grid, o)
  {
    var ch := grid[c.1][c.0];
    if ch == '@' then NewPlayer(c.0, c.1, PlayerStats())
    else if ch == '1' then NewGoblin(c.0, c.1, GoblinStats())
    else NewGold(c.0, c.1, GoldAmount)
  }

  /** The index of the last `Player` in the list: each `'@'` overwrites
      `this.player`, so the last one wins. */
  function LastPlayer(objs: seq<Obj>): (r: Option<nat>)
    ensures r.Some? ==> r.value < |objs| && objs[r.value].Player?
    ensures r.Some? ==> forall j :: r.value < j < |objs| ==> !objs[j].Player?
    ensures r.None? <==> forall j :: 0 <= j < |objs| ==> !objs[j].Player?
  {
    if |objs| == 0 then None
    else if objs[|objs| - 1].Player? then Some(|objs| - 1)
    else LastPlayer(objs[..|objs| - 1])
  }

  /** The constructor's scan of the first `maxX` columns of every row. */
  function Parse(grid: Map): (d: Dungeon)
    requires |grid| > 0
    ensures Valid(d) && d.grid == grid
    ensures RowMajor(Positions(d.objects)) && NoDuplicates(Positions(d.objects))
    ensures forall c :: c in Positions(d.objects) <==> Holds(grid, FirstRowWidth, Markers(), c.0, c.1)
    ensures forall i :: 0 <= i < |d.objects| ==> KindMatches(grid, d.objects[i])
    ensures d.player == LastPlayer(d.objects)
  {
    var cells := Find(grid, FirstRowWidth, Markers());
    var objects := SpawnAll(grid, cells);
    Dungeon(grid, objects, LastPlayer(objects))
  }

  function SpawnAll(grid: Map, cells: seq<Cell>): (objs: seq<Obj>)
    requires forall c :: c in cells ==> Holds(grid, FirstRowWidth, Markers(), c.0, c.1)
    ensures Positions(objs) == cells
    ensures forall i :: 0 <= i < |objs| ==> KindMatches(grid, objs[i])
  {
    var objs := seq(|cells|, i requires 0 <= i < |cells| => Spawn(grid, cells[i]));
    assert forall i :: 0 <= i < |objs| ==> objs[i] == Spawn(grid, cells[i]) && cells[i] in cells;
    assert Positions(objs) == cells;
    objs
  }

  /** An object is what its own cell's marker says it is: `'@'` a player
      with `STATS.player`, `'1'` a goblin with `STATS.goblin`, `'*'` gold
      worth 25. */
  predicate KindMatches(grid: Map, o: Obj)
  {
    && HasRow(grid, o.y) && 0 <= o.x < |grid[o.y]|
    && var ch := grid[o.y][o.x];
    && (o.Player? <==> ch == '@') && (o.Goblin? <==> ch == '1') && (o.Gold? <==> ch == '*')
    && (o.Player? ==> o.stats == PlayerStats())
    && (o.Goblin? ==> o.stats == GoblinStats())
    && (o.Gold? ==> o.amount == GoldAmount)
  }

  /** Every scanned `'@'` became a `Player` object standing on it. */
  lemma PlayerSpawnedAt(grid: Map, objs: seq<Obj>, x: int, y: int) returns (j: nat)
    requires forall c :: c in Positions(objs) <==> Holds(grid, FirstRowWidth, Markers(), c.0, c.1)
    requires forall i :: 0 <= i < |objs| ==> KindMatches(grid, objs[i])
    requires Holds(grid, FirstRowWidth, {'@'}, x, y)
    ensures j < |objs| && objs[j].Player? && Position(objs[j]) == (x, y)
  {
    var ps := Positions(objs);
    assert Holds(grid, FirstRowWidth, Markers(), x, y);
    assert (x, y) in ps;
    j :| 0 <= j < |ps| && ps[j] == (x, y);
    assert KindMatches(grid, objs[j]);
  }

  /** Conversely every `Player` object stands on a scanned `'@'`. */
  lemma PlayerStandsOnAt(grid: Map, objs: seq<Obj>, j: nat)
    requires forall c :: c in Positions(objs) <==> Holds(grid, FirstRowWidth, Markers(), c.0, c.1)
    requires forall i :: 0 <= i < |objs| ==> KindMatches(grid, objs[i])
    requires j < |objs| && objs[j].Player?
    ensures Holds(grid, FirstRowWidth, {'@'}, objs[j].x, objs[j].y)
  {
    var ps := Positions(objs);
    assert KindMatches(grid, objs[j]);
    assert ps[j] in ps;
  }

  /** `this.player` stands on an `'@'`, every other scanned `'@'` comes
      earlier in reading order, and there is no player exactly when the
      scanned columns hold no `'@'`. */
  lemma ParsePlayerIsLastAt(grid: Map)
    requires |grid| > 0
    ensures var d := Parse(grid);
      d.player.None? <==> forall x, y :: !Holds(grid, FirstRowWidth, {'@'}, x, y)
    ensures var d := Parse(grid);
      d.player.Some? ==>
        var p := Position(d.objects[d.player.value]);
        && Holds(grid, FirstRowWidth, {'@'}, p.0, p.1)
        && forall x, y :: Holds(grid, FirstRowWidth, {'@'}, x, y) && (x, y) != p ==> Before((x, y), p)
  {
    var d := Parse(grid);
    var ps := Positions(d.objects);
    forall x, y | Holds(grid, FirstRowWidth, {'@'}, x, y)
      ensures d.player.Some?
      ensures (x, y) != Position(d.objects[d.player.value]) ==> Before((x, y), Position(d.objects[d.player.value]))
    {
      var j := PlayerSpawnedAt(grid, d.objects, x, y);
      var p := d.player.value;
      if j < p {
        assert Before(ps[j], ps[p]);
      }
    }
    if d.player.Some? {
      PlayerStandsOnAt(grid, d.objects, d.player.value);
    }
  }

  /** What `canMoveTo` returns: `false`, the item itself, or `true`. */
  datatype Destination = Blocked | Item(index: nat) | Free

  /** Nothing on `(x, y)`. */
  predicate Empty(objs: seq<Obj>, x: int, y: int)
  {
    forall j :: 0 <= j < |objs| ==> !objs[j].At(x, y)
  }

  /** `k` is the first object on `(x, y)`. */
  predicate FirstAt(objs: seq<Obj>, k: int, x: int, y: int)
  {
    0 <= k < |objs| && objs[k].At(x, y) && forall j :: 0 <= j < k ==> !objs[j].At(x, y)
  }

  /** `canMoveTo(x, y)`. */
  function CanMoveTo(d: Dungeon, x: int, y: int): (r: Destination)
    requires |d.grid| > 0
    ensures r.Free? <==> InBounds(d.grid, x, y) && !IsWall(d.grid, (x, y)) && Empty(d.objects, x, y)
    ensures r.Item? ==> InBounds(d.grid, x, y) && !IsWall(d.grid, (x, y))
                        && FirstAt(d.objects, r.index, x, y) && d.objects[r.index].CanPickUp()
    ensures r.Blocked? <==>
              || !InBounds(d.grid, x, y)
              || IsWall(d.grid, (x, y))
              || exists k :: FirstAt(d.objects, k, x, y) && !d.objects[k].CanPickUp()
  {
    if y < 0 || y >= MaxY(d.grid) then Blocked
    else if x < 0 || x >= MaxX(d.grid) then Blocked
    else if CharAt(d.grid, x, y) == Some('#') then Blocked
    else
      match CheckCollision(d.objects, x, y)
      case Some(k) => if !d.objects[k].CanPickUp() then Blocked else Item(k)
      case None => Free
  }

  /** What `getObjectAt` returns: `null`, `'Wall'`, the item, or `'Floor'`. */
  datatype Lookup = Nothing | WallTile | Thing(index: nat) | FloorTile

  /** `getObjectAt(x, y)`. */
  function GetObjectAt(d: Dungeon, x: int, y: int): (r: Lookup)
    requires |d.grid| > 0
    ensures r.Nothing? <==> !InBounds(d.grid, x, y)
    ensures r.WallTile? <==> InBounds(d.grid, x, y) && IsWall(d.grid, (x, y))
    ensures r.Thing? ==> InBounds(d.grid, x, y) && !IsWall(d.grid, (x, y)) && FirstAt(d.objects, r.index, x, y)
    ensures r.FloorTile? <==> InBounds(d.grid, x, y) && !IsWall(d.grid, (x, y)) && Empty(d.objects, x, y)
  {
    if y < 0 || y >= MaxY(d.grid) then Nothing
    else if x < 0 || x >= MaxX(d.grid) then Nothing
    else if CharAt(d.grid, x, y) == Some('#') then WallTile
    else
      match CheckCollision(d.objects, x, y)
      case Some(k) => Thing(k)
      case None => FloorTile
  }

  /** The two queries classify every cell the same way: a move is refused
      exactly where the lookup reports nothing, a wall or an object that
      cannot be picked up. */
  lemma CanMoveToAgreesWithGetObjectAt(d: Dungeon, x: int, y: int)
    requires |d.grid| > 0
    ensures CanMoveTo(d, x, y).Free? <==> GetObjectAt(d, x, y).FloorTile?
    ensures forall k: nat :: CanMoveTo(d, x, y) == Item(k) <==>
                        GetObjectAt(d, x, y) == Thing(k) && d.objects[k].CanPickUp()
    ensures CanMoveTo(d, x, y).Blocked? <==>
              || GetObjectAt(d, x, y).Nothing?
              || GetObjectAt(d, x, y).WallTile?
              || (GetObjectAt(d, x, y).Thing? && !d.objects[GetObjectAt(d, x, y).index].CanPickUp())
  {
  }
}

=== FILE: grid.dfy ===
/** Cells, the ASCII map and the four step directions shared by every
    part of the dungeon.  A map is the list of text rows the game is
    constructed from; row 0 is the top row and `y` grows downwards. */
module Grid {

  datatype Option<+T> = None | Some(value: T)
  {
    function GetOr(default: T): T
    {
      match this
      case Some(v) => v
      case None => default
    }
  }

  /** A grid coordinate `(x, y)`. */
  type Cell = (int, int)

  /** The dungeon map: one string per row. */
  type Map = seq<string>

  function Abs(n: int): nat
  {
    if n < 0 then -n else n
  }

  /** `DELTAS`: the four unit steps in the order left, down, right, up. */
  function Deltas(): (ds: seq<Cell>)
    ensures |ds| == 4
    ensures forall i :: 0 <= i < 4 ==> Abs(ds[i].0) + Abs(ds[i].1) == 1
    ensures forall i, j :: 0 <= i < j < 4 ==> ds[i] != ds[j]
    ensures ds[0].0 < 0 && ds[1].1 > 0 && ds[2].0 > 0 && ds[3].1 < 0
  {
    [(-1, 0), (0, 1), (1, 0), (0, -1)]
  }

  function Step(c: Cell, d: Cell): Cell
  {
    (c.0 + d.0, c.1 + d.1)
  }

  /** The cell one step back along direction `k`: `Step(Back(c, k), Deltas()[k]) == c`. */
  function Back(c: Cell, k: int): Cell
    requires 0 <= k < 4
  {
    (c.0 - Deltas()[k].0, c.1 - Deltas()[k].1)
  }

  /** `map[y]` is a row; for any other `y` it is `undefined`. */
  predicate HasRow(grid: Map, y: int)
  {
    0 <= y < |grid|
  }

  /** `map[y][x]` for a defined row: `None` stands for `undefined`, which
      is what the lookup yields for a column outside the row. */
  function CharAt(grid: Map, x: int, y: int): Option<char>
    requires HasRow(grid, y)
  {
    if 0 <= x < |grid[y]| then Some(grid[y][x]) else None
  }

  /** `map[y][x] === '#'`, for a defined row. */
  predicate IsWall(grid: Map, c: Cell)
  {
    HasRow(grid, c.1) && CharAt(grid, c.0, c.1) == Some('#')
  }

  /** `maxX = map[0].length`. */
  function MaxX(grid: Map): nat
    requires |grid| > 0
  {
    |grid[0]|
  }

  /** `maxY = map.length`. */
  function MaxY(grid: Map): nat
  {
    |grid|
  }

  /** Inside the rectangle `[0, maxX) x [0, maxY)`. */
  predicate InBounds(grid: Map, x: int, y: int)
    requires |grid| > 0
  {
    0 <= y < MaxY(grid) && 0 <= x < MaxX(grid)
  }

  lemma MulMonotone(a: int, b: int, t: int)
    requires a <= b && t > 0
    ensures a * t <= b * t
  {
  }

  predicate NoDuplicates<T(==)>(s: seq<T>)
  {
    forall i, j :: 0 <= i < j < |s| ==> s[i] != s[j]
  }

  /** A neighbour taken one step from `c` is never `c` itself, and the
      step back from it along the same direction returns to `c`. */
  lemma StepBack(c: Cell, k: int)
    requires 0 <= k < 4
    ensures Step(c, Deltas()[k]) != c
    ensures Back(Step(c, Deltas()[k]), k) == c
  {
  }
}

=== FILE: legacy.dfy ===
/** The older single-file version of the game: `isBlocked`, the
    position-only `Character.move`, `_findObjects` and the camera with
    40-pixel tiles. */
module Legacy {
  import opened Grid
  import opened Scan
  import Dungeon
  import Camera

  /** `isBlocked(x, y)`: only an in-bounds `' '` is open, so walls, the
      markers `'@'`, `'1'`, `'*'` and columns past a short row's end all
      block. */
  function IsBlocked(grid: Map, x: int, y: int): (b: bool)
    requires |grid| > 0
    ensures !InBounds(grid, x, y) ==> b
    ensures InBounds(grid, x, y) ==> (b <==> CharAt(grid, x, y) != Some(' '))
  {
    if y < 0 || y >= MaxY(grid) then true
    else if x < 0 || x >= MaxX(grid) then true
    else CharAt(grid, x, y) != Some(' ')
  }

  /** An in-bounds floor cell of the older version. */
  predicate OnFloor(grid: Map, c: Cell)
    requires |grid| > 0
  {
    InBounds(grid, c.0, c.1) && CharAt(grid, c.0, c.1) == Some(' ')
  }

  /** `Character.move(dx, dy)` on the character's position. */
  function Move(grid: Map, c: Cell, dx: int, dy: int): (c': Cell)
    requires |grid| > 0
    ensures IsBlocked(grid, c.0 + dx, c.1 + dy) ==> c' == c
    ensures !IsBlocked(grid, c.0 + dx, c.1 + dy) ==> c' == (c.0 + dx, c.1 + dy) && OnFloor(grid, c')
  {
    if !IsBlocked(grid, c.0 + dx, c.1 + dy) then (c.0 + dx, c.1 + dy) else c
  }

  /** A sequence of key presses. */
  function Walk(grid: Map, c: Cell, steps: seq<Cell>): Cell
    requires |grid| > 0
    decreases |steps|
  {
    if |steps| == 0 then c
    else Walk(grid, Move(grid, c, steps[0].0, steps[0].1), steps[1..])
  }

  /** Wherever a walk ends, the character is back where it started only
      if it never moved, and otherwise stands on an in-bounds floor cell. */
  lemma {:induction false} WalkEndsOnFloor(grid: Map, c: Cell, steps: seq<Cell>)
    requires |grid| > 0
    ensures Walk(grid, c, steps) == c || OnFloor(grid, Walk(grid, c, steps))
    decreases |steps|
  {
    if |steps| > 0 {
      var c1 := Move(grid, c, steps[0].0, steps[0].1);
      WalkEndsOnFloor(grid, c1, steps[1..]);
    }
  }

  /** A walk splits at any point into two walks. */
  lemma {:induction false} WalkSplits(grid: Map, c: Cell, steps: seq<Cell>, k: nat)
    requires |grid| > 0 && k <= |steps|
    ensures Walk(grid, c, steps) == Walk(grid, Walk(grid, c, steps[..k]), steps[k..])
    decreases k
  {
    if k > 0 {
      var c1 := Move(grid, c, steps[0].0, steps[0].1);
      assert steps[1..][..k - 1] == steps[..k][1..];
      assert steps[1..][k - 1..] == steps[k..];
      WalkSplits(grid, c1, steps[1..], k - 1);
    }
  }

  /** A character that starts on its `'@'` cell never re-enters it: once
      any step has taken it elsewhere it is still elsewhere at the end. */
  lemma NeverReentersStart(grid: Map, c: Cell, steps: seq<Cell>, k: nat)
    requires |grid| > 0 && InBounds(grid, c.0, c.1) && CharAt(grid, c.0, c.1) == Some('@')
    requires k <= |steps| && Walk(grid, c, steps[..k]) != c
    ensures Walk(grid, c, steps) != c
  {
    var mid := Walk(grid, c, steps[..k]);
    WalkEndsOnFloor(grid, c, steps[..k]);
    WalkSplits(grid, c, steps, k);
    WalkEndsOnFloor(grid, mid, steps[k..]);
  }

  /** `this.objects` of `_findObjects`: `player` is the last `'@'`,
      enemies and gold in the order found. */
  datatype Found = Found(player: Option<Cell>, enemies: seq<Cell>, gold: seq<Cell>)

  /** The if/else chain of the scan applied to the marker cells in order. */
  function Sort(grid: Map, cells: seq<Cell>): (f: Found)
    requires forall c :: c in cells ==> Holds(grid, OwnRowLength, {'@', '1', '*'}, c.0, c.1)
    requires RowMajor(cells)
    ensures RowMajor(f.enemies) && RowMajor(f.gold)
    ensures forall c :: c in f.enemies <==> c in cells && Holds(grid, OwnRowLength, {'1'}, c.0, c.1)
    ensures forall c :: c in f.gold <==> c in cells && Holds(grid, OwnRowLength, {'*'}, c.0, c.1)
    decreases |cells|
  {
    if |cells| == 0 then Found(None, [], [])
    else
      var rest := cells[..|cells| - 1];
      var c := cells[|cells| - 1];
      assert c in cells && Holds(grid, OwnRowLength, {'@', '1', '*'}, c.0, c.1);
      assert forall e :: e in rest ==> e in cells && Before(e, c);
      var f := Sort(grid, rest);
      var ch := grid[c.1][c.0];
      if ch == '@' then f.(player := Some(c))
      else if ch == '1' then f.(enemies := f.enemies + [c])
      else f.(gold := f.gold + [c])
  }

  /** Each `'@'` overwrites `this.player`: the player found is the last
      `'@'` among the cells, and there is none exactly when no cell holds
      an `'@'`. */
  lemma {:induction false} SortPlayerIsLast(grid: Map, cells: seq<Cell>)
    requires forall c :: c in cells ==> Holds(grid, OwnRowLength, {'@', '1', '*'}, c.0, c.1)
    requires RowMajor(cells)
    ensures var f := Sort(grid, cells);
      f.player.None? <==> forall c :: c in cells ==> !Holds(grid, OwnRowLength, {'@'}, c.0, c.1)
    ensures var f := Sort(grid, cells);
      f.player.Some? ==>
        var p := f.player.value;
        && p in cells && Holds(grid, OwnRowLength, {'@'}, p.0, p.1)
        && forall c :: c in cells && Holds(grid, OwnRowLength, {'@'}, c.0, c.1) && c != p ==> Before(c, p)
    decreases |cells|
  {
    if |cells| > 0 {
      var rest := cells[..|cells| - 1];
      var c := cells[|cells| - 1];
      assert c in cells;
      assert forall e :: e in rest ==> e in cells && Before(e, c);
      assert forall e :: e in cells ==> e in rest || e == c;
      SortPlayerIsLast(grid, rest);
    }
  }

  /** `_findObjects(map)`: every row scanned up to its own length. */
  function FindObjects(grid: Map): (f: Found)
    ensures RowMajor(f.enemies) && RowMajor(f.gold)
    ensures forall c :: c in f.enemies <==> Holds(grid, OwnRowLength, {'1'}, c.0, c.1)
    ensures forall c :: c in f.gold <==> Holds(grid, OwnRowLength, {'*'}, c.0, c.1)
    ensures f.player.None? <==> forall x, y :: !Holds(grid, OwnRowLength, {'@'}, x, y)
    ensures f.player.Some? ==>
      var p := f.player.value;
      && Holds(grid, OwnRowLength, {'@'}, p.0, p.1)
      && forall x, y :: Holds(grid, OwnRowLength, {'@'}, x, y) && (x, y) != p ==> Before((x, y), p)
  {
    var cells := Find(grid, OwnRowLength, {'@', '1', '*'});
    SortPlayerIsLast(grid, cells);
    var f := Sort(grid, cells);
    assert forall x, y :: Holds(grid, OwnRowLength, {'@'}, x, y) ==> (x, y) in cells;
    f
  }

  /** No object of the loaded dungeon stands on a cell that does not
      hold a marker character. */
  lemma UnmarkedCellIsEmpty(grid: Map, x: int, y: int)
    requires |grid| > 0
    requires !(HasRow(grid, y) && 0 <= x < |grid[y]| && grid[y][x] in Dungeon.Markers())
    ensures Dungeon.Empty(Dungeon.Parse(grid).objects, x, y)
  {
    var objs := Dungeon.Parse(grid).objects;
    forall j | 0 <= j < |objs|
      ensures !objs[j].At(x, y)
    {
      assert Dungeon.KindMatches(grid, objs[j]);
    }
  }

  /** A cell the older version lets a character onto is open in the
      newer version's dungeon loaded from the same map as well. */
  lemma OpenInBothVersions(grid: Map, x: int, y: int)
    requires |grid| > 0
    requires !IsBlocked(grid, x, y)
    ensures InBounds(grid, x, y) && !IsWall(grid, (x, y))
    ensures Dungeon.CanMoveTo(Dungeon.Parse(grid), x, y).Free?
  {
    UnmarkedCellIsEmpty(grid, x, y);
  }

  /** The versions differ past a short row's end: the older one blocks
      the column, the newer one reads `undefined`, which is not `'#'`,
      and no object stands there, so the move goes through. */
  lemma ShortRowDiffers(grid: Map, x: int, y: int)
    requires |grid| > 0 && InBounds(grid, x, y) && x >= |grid[y]|
    ensures IsBlocked(grid, x, y)
    ensures Dungeon.CanMoveTo(Dungeon.Parse(grid), x, y).Free?
  {
    UnmarkedCellIsEmpty(grid, x, y);
  }

  /** The shape of such a map: a second row one column shorter. */
  lemma ShortRowExample()
    ensures var grid := ["#  ", "# "];
      IsBlocked(grid, 2, 1) && Dungeon.CanMoveTo(Dungeon.Parse(grid), 2, 1).Free?
  {
    ShortRowDiffers(["#  ", "# "], 2, 1);
  }

  /** The older camera is the newer one's `_findOffset` with 40-pixel
      tiles, and it too keeps a player who steps one tile at a time on
      the canvas. */
  lemma LegacyScrollKeepsPlayerOnScreen(pos: Cell, pos': Cell, view: Camera.View, maxX: int, maxY: int)
    requires view.maxOffsetX == maxX - Camera.ScreenTiles(Camera.CanvasWidth, Camera.LegacyTileSize)
    requires view.maxOffsetY == maxY - Camera.ScreenTiles(Camera.CanvasHeight, Camera.LegacyTileSize)
    requires Camera.OffsetInRange(view.offsetX, view.maxOffsetX) && Camera.OffsetInRange(view.offsetY, view.maxOffsetY)
    requires Camera.OnScreen(Camera.CanvasWidth, Camera.LegacyTileSize, pos.0, view.offsetX)
    requires Camera.OnScreen(Camera.CanvasHeight, Camera.LegacyTileSize, pos.1, view.offsetY)
    requires Abs(pos'.0 - pos.0) + Abs(pos'.1 - pos.1) <= 1
    requires 0 <= pos'.0 < maxX && 0 <= pos'.1 < maxY
    ensures var v' := Camera.FindOffset(Camera.LegacyTileSize, view, pos'.0, pos'.1);
      && Camera.OffsetInRange(v'.offsetX, v'.maxOffsetX) && Camera.OffsetInRange(v'.offsetY, v'.maxOffsetY)
      && Camera.OnScreen(Camera.CanvasWidth, Camera.LegacyTileSize, pos'.0, v'.offsetX)
      && Camera.OnScreen(Camera.CanvasHeight, Camera.LegacyTileSize, pos'.1, v'.offsetY)
  {
    Camera.ScrollKeepsPlayerOnScreen(Camera.CanvasWidth, Camera.LegacyTileSize, pos.0, pos'.0, view.offsetX, view.maxOffsetX);
    Camera.ScrollKeepsPlayerOnScreen(Camera.CanvasHeight, Camera.LegacyTileSize, pos.1, pos'.1, view.offsetY, view.maxOffsetY);
  }
}

=== FILE: movement.dfy ===
/** `Character.move` and `Player.pickUp` of the newer version: a small
    state machine over the positions in the object list and the
    player's gold. */
module Movement {
  import opened Grid
  import opened Objects
  import opened Dungeon

  /** The dungeon after a move, and the index at which the moving
      character now sits in the object list (a pickup splices the list,
      which can shift the mover down by one). */
  datatype Moved = Moved(dungeon: Dungeon, mover: nat)

  function Relocate(o: Obj, x: int, y: int): (o': Obj)
    ensures o'.At(x, y)
    ensures o'.Player? == o.Player? && o'.Goblin? == o.Goblin? && o'.Gold? == o.Gold?
  {
    match o
    case Player(_, _, s) => Player(x, y, s)
    case Goblin(_, _, s) => Goblin(x, y, s)
    case Gold(_, _, a) => Gold(x, y, a)
  }

  /** `this.gold += item.amount`.  A player whose stat record had no
      `gold` key keeps it absent. */
  function AddGold(o: Obj, amount: int): (o': Obj)
    requires o.Player?
    ensures o'.Player? && Position(o') == Position(o)
    ensures o.stats.gold.Some? ==> o'.stats.gold == Some(o.stats.gold.value + amount)
    ensures o'.stats == o.stats.(gold := o'.stats.gold)
  {
    match o.stats.gold
    case Some(g) => o.(stats := o.stats.(gold := Some(g + amount)))
    case None => o
  }

  /** `splice(i, 1)`. */
  function RemoveAt<T>(s: seq<T>, i: nat): (r: seq<T>)
    requires i < |s|
    ensures |r| == |s| - 1
    ensures forall j :: 0 <= j < |s| && j != i ==> r[Shift(j, i)] == s[j]
  {
    s[..i] + s[i + 1..]
  }

  /** `objs'` is `objs` with the entry at `i` spliced out: every entry
      other than `i` and `who` lands, unchanged, at its shifted index. */
  predicate SplicedAround(objs: seq<Obj>, objs': seq<Obj>, who: nat, i: nat)
  {
    && i < |objs| && |objs'| == |objs| - 1
    && forall j :: 0 <= j < |objs| && j != who && j != i ==> objs'[Shift(j, i)] == objs[j]
  }

  /** Where index `j` lands once index `i` has been spliced out. */
  function Shift(j: nat, i: nat): nat
    requires j != i
  {
    if j < i then j else j - 1
  }

  /** `pickUp(item)` called by player `who` with what `canMoveTo` returned. */
  function PickUp(d: Dungeon, who: nat, dest: Destination): (r: Moved)
    requires Valid(d) && who < |d.objects| && d.objects[who].Player?
    requires !dest.Blocked?
    requires dest.Item? ==> dest.index < |d.objects| && dest.index != who
    ensures Valid(r.dungeon) && r.dungeon.grid == d.grid
    ensures d.player == Some(who) ==> r.dungeon.player == Some(r.mover)
    ensures !(dest.Item? && d.objects[dest.index].CanPickUp()) ==> r == Moved(d, who)
    ensures dest.Item? && d.objects[dest.index].CanPickUp() ==>
              var i := dest.index;
              var objs' := r.dungeon.objects;
              && |objs'| == |d.objects| - 1
              && r.mover == Shift(who, i)
              && objs'[r.mover] == AddGold(d.objects[who], d.objects[i].amount)
              && forall j :: 0 <= j < |d.objects| && j != who && j != i ==> objs'[Shift(j, i)] == d.objects[j]
    ensures dest.Item? && d.objects[dest.index].CanPickUp() && d.player.Some? && d.player.value != who ==>
              d.player.value != dest.index && r.dungeon.player == Some(Shift(d.player.value, dest.index))
  {
    match dest
    case Free => Moved(d, who)
    case Item(i) =>
      if d.objects[i].CanPickUp() then Take(d, who, i) else Moved(d, who)
  }

  /** The player at `who` banks the pile at `i`, which leaves the list.
      `this.player` is a reference, so it keeps naming the same object:
      its index shifts down past the spliced pile. */
  function Take(d: Dungeon, who: nat, i: nat): (r: Moved)
    requires Valid(d) && who < |d.objects| && d.objects[who].Player?
    requires i < |d.objects| && i != who && d.objects[i].CanPickUp()
    ensures Valid(r.dungeon) && r.dungeon.grid == d.grid
    ensures d.player == Some(who) ==> r.dungeon.player == Some(r.mover)
    ensures |r.dungeon.objects| == |d.objects| - 1
    ensures r.mover == Shift(who, i)
    ensures r.dungeon.objects[r.mover] == AddGold(d.objects[who], d.objects[i].amount)
    ensures forall j :: 0 <= j < |d.objects| && j != who && j != i ==>
              r.dungeon.objects[Shift(j, i)] == d.objects[j]
    ensures d.player.Some? && d.player.value != who ==> d.player.value != i && r.dungeon.player == Some(Shift(d.player.value, i))
  {
    var objs := d.objects[who := AddGold(d.objects[who], d.objects[i].amount)];
    var player := if d.player.Some? && i < d.player.value then Some(d.player.value - 1) else d.player;
    assert d.player.Some? ==> d.player.value != i;
    Moved(Dungeon(d.grid, RemoveAt(objs, i), player), Shift(who, i))
  }

  /** `character.move(dx, dy)` for the character at index `who`.
      `r.mover` is the mover's index afterwards for every character: it
      stays `who` unless a player's pickup splices out an earlier pile,
      which shifts it down by one; goblins never pick anything up. */
  function Move(d: Dungeon, who: nat, dx: int, dy: int): (r: Moved)
    requires Valid(d) && who < |d.objects| && d.objects[who].IsCharacter()
    ensures Valid(r.dungeon) && r.dungeon.grid == d.grid
    ensures d.player == Some(who) ==> r.dungeon.player == Some(r.mover)
    ensures var o := d.objects[who];
      CanMoveTo(d, o.x + dx, o.y + dy).Blocked? ==> r == Moved(d, who)
    ensures var o := d.objects[who];
      !CanMoveTo(d, o.x + dx, o.y + dy).Blocked? ==>
        && r.mover < |r.dungeon.objects|
        && r.dungeon.objects[r.mover].At(o.x + dx, o.y + dy)
        && r.dungeon.objects[r.mover].Player? == o.Player?
        && r.dungeon.objects[r.mover].Goblin? == o.Goblin?
    ensures var o := d.objects[who];
      var dest := CanMoveTo(d, o.x + dx, o.y + dy);
      (dest.Free? || (dest.Item? && !o.HasPickUp())) ==>
        && r.mover == who && |r.dungeon.objects| == |d.objects|
        && r.dungeon.player == d.player
        && r.dungeon.objects[who] == Relocate(o, o.x + dx, o.y + dy)
        && forall j :: 0 <= j < |d.objects| && j != who ==> r.dungeon.objects[j] == d.objects[j]
    ensures var o := d.objects[who];
      var dest := CanMoveTo(d, o.x + dx, o.y + dy);
      dest.Item? && o.HasPickUp() ==>
        var i := dest.index;
        && |r.dungeon.objects| == |d.objects| - 1
        && r.mover == Shift(who, i)
        && r.dungeon.objects[r.mover] == AddGold(Relocate(o, o.x + dx, o.y + dy), d.objects[i].amount)
        && SplicedAround(d.objects, r.dungeon.objects, who, i)
    ensures var o := d.objects[who];
      var dest := CanMoveTo(d, o.x + dx, o.y + dy);
      dest.Item? && o.HasPickUp() && d.player.Some? && d.player.value != who ==>
        d.player.value != dest.index && r.dungeon.player == Some(Shift(d.player.value, dest.index))
  {
    var o := d.objects[who];
    var nx := o.x + dx;
    var ny := o.y + dy;
    var dest := CanMoveTo(d, nx, ny);
    if dest.Blocked? then Moved(d, who)
    else if o.HasPickUp() && dest.Item? then StepAndPickUp(d, who, nx, ny, dest.index)
    else
      var moved := Dungeon(d.grid, d.objects[who := Relocate(o, nx, ny)], d.player);
      assert Valid(moved);
      Moved(moved, who)
  }

  /** The player at `who` steps to `(x, y)` and calls `pickUp` on the pile
      at `i` it found there (`pickUp` on a free cell does nothing, so
      `Move` only takes this path for a pile). */
  function StepAndPickUp(d: Dungeon, who: nat, x: int, y: int, i: nat): (r: Moved)
    requires Valid(d) && who < |d.objects| && d.objects[who].Player?
    requires i < |d.objects| && i != who && d.objects[i].CanPickUp()
    ensures Valid(r.dungeon) && r.dungeon.grid == d.grid
    ensures d.player == Some(who) ==> r.dungeon.player == Some(r.mover)
    ensures d.player.Some? && d.player.value != who ==> d.player.value != i && r.dungeon.player == Some(Shift(d.player.value, i))
    ensures |r.dungeon.objects| == |d.objects| - 1
    ensures r.mover == Shift(who, i) && r.dungeon.objects[r.mover].At(x, y)
    ensures r.dungeon.objects[r.mover] == AddGold(Relocate(d.objects[who], x, y), d.objects[i].amount)
    ensures SplicedAround(d.objects, r.dungeon.objects, who, i)
  {
    var moved := Dungeon(d.grid, d.objects[who := Relocate(d.objects[who], x, y)], d.player);
    assert Valid(moved) && moved.objects[i] == d.objects[i];
    PickUp(moved, who, Item(i))
  }

  /** A move onto a free cell, or onto a pile the mover leaves: only the
      mover's entry changes. */
  lemma StepFrame(d: Dungeon, who: nat, dx: int, dy: int) returns (r: Moved)
    requires Valid(d) && who < |d.objects| && d.objects[who].IsCharacter()
    requires var dest := CanMoveTo(d, d.objects[who].x + dx, d.objects[who].y + dy);
      dest.Free? || (dest.Item? && !d.objects[who].HasPickUp())
    ensures r == Move(d, who, dx, dy)
    ensures r.mover == who && |r.dungeon.objects| == |d.objects|
    ensures r.dungeon.objects[who] == Relocate(d.objects[who], d.objects[who].x + dx, d.objects[who].y + dy)
    ensures forall j :: 0 <= j < |d.objects| && j != who ==> r.dungeon.objects[j] == d.objects[j]
  {
    r := Move(d, who, dx, dy);
  }

  /** Every character stands inside the map on a cell that is not a wall. */
  predicate Grounded(grid: Map, objs: seq<Obj>)
    requires |grid| > 0
  {
    forall j :: 0 <= j < |objs| && objs[j].IsCharacter() ==>
      InBounds(grid, objs[j].x, objs[j].y) && !IsWall(grid, Position(objs[j]))
  }

  /** The index an object had before index `i` was spliced out. */
  function Unshift(j: nat, i: nat): (k: nat)
    ensures k != i && Shift(k, i) == j
  {
    if j < i then j else j + 1
  }

  /** A character that starts inside the map on open ground is still
      inside the map on open ground after any move, and so is everyone
      else. */
  lemma MoveKeepsGrounded(d: Dungeon, who: nat, dx: int, dy: int)
    requires Valid(d) && who < |d.objects| && d.objects[who].IsCharacter()
    requires Grounded(d.grid, d.objects)
    ensures Grounded(d.grid, Move(d, who, dx, dy).dungeon.objects)
  {
    var o := d.objects[who];
    var dest := CanMoveTo(d, o.x + dx, o.y + dy);
    var r := Move(d, who, dx, dy);
    if dest.Blocked? {
      assert r.dungeon == d;
    } else if dest.Item? && o.HasPickUp() {
      PickupKeepsGrounded(d, who, dx, dy);
    } else {
      StepKeepsGrounded(d, who, dx, dy);
    }
  }

  /** A move onto a pile the mover picks up. */
  lemma PickupKeepsGrounded(d: Dungeon, who: nat, dx: int, dy: int)
    requires Valid(d) && who < |d.objects| && d.objects[who].IsCharacter()
    requires Grounded(d.grid, d.objects)
    requires d.objects[who].HasPickUp() && CanMoveTo(d, d.objects[who].x + dx, d.objects[who].y + dy).Item?
    ensures Grounded(d.grid, Move(d, who, dx, dy).dungeon.objects)
  {
    var o := d.objects[who];
    var t := (o.x + dx, o.y + dy);
    var i := CanMoveTo(d, t.0, t.1).index;
    var r := Move(d, who, dx, dy);
    GroundedAfterSplice(d.grid, d.objects, r.dungeon.objects, who, i, r.mover, t);
  }

  /** A move onto a free cell, or onto a pile the mover leaves. */
  lemma StepKeepsGrounded(d: Dungeon, who: nat, dx: int, dy: int)
    requires Valid(d) && who < |d.objects| && d.objects[who].IsCharacter()
    requires Grounded(d.grid, d.objects)
    requires var dest := CanMoveTo(d, d.objects[who].x + dx, d.objects[who].y + dy);
      dest.Free? || (dest.Item? && !d.objects[who].HasPickUp())
    ensures Grounded(d.grid, Move(d, who, dx, dy).dungeon.objects)
  {
    var o := d.objects[who];
    var t := (o.x + dx, o.y + dy);
    var r := StepFrame(d, who, dx, dy);
    GroundedAfterSplice(d.grid, d.objects, r.dungeon.objects, who, |d.objects|, who, t);
  }

  /** `objs'` is `objs` with the mover at `who` relocated to the open cell
      `t` (now at index `mover`) and, when `i < |objs|`, index `i` spliced out. */
  lemma GroundedAfterSplice(grid: Map, objs: seq<Obj>, objs': seq<Obj>, who: nat, i: nat, mover: nat, t: Cell)
    requires |grid| > 0 && Grounded(grid, objs)
    requires who < |objs| && who != i && i <= |objs|
    requires InBounds(grid, t.0, t.1) && !IsWall(grid, t)
    requires |objs'| == if i < |objs| then |objs| - 1 else |objs|
    requires mover < |objs'| && objs'[mover].At(t.0, t.1)
    requires mover == Shift(who, i)
    requires forall j :: 0 <= j < |objs| && j != who && j != i ==> objs'[Shift(j, i)] == objs[j]
    ensures Grounded(grid, objs')
  {
    forall j | 0 <= j < |objs'| && objs'[j].IsCharacter()
      ensures InBounds(grid, objs'[j].x, objs'[j].y) && !IsWall(grid, Position(objs'[j]))
    {
      if j != mover {
        var k := Unshift(j, i);
        assert k != who && k < |objs|;
        assert objs'[j] == objs[k];
      }
    }
  }

  /** A player's move keeps "at most one object per cell": it only
      enters an empty cell, or a cell whose only object is the gold it
      then removes. */
  lemma PlayerMoveKeepsOnePerCell(d: Dungeon, who: nat, dx: int, dy: int)
    requires Valid(d) && who < |d.objects| && d.objects[who].Player?
    requires OnePerCell(d.objects)
    ensures OnePerCell(Move(d, who, dx, dy).dungeon.objects)
  {
    var o := d.objects[who];
    var t := (o.x + dx, o.y + dy);
    var dest := CanMoveTo(d, t.0, t.1);
    if dest.Free? {
      var r := StepFrame(d, who, dx, dy);
      EnterEmptyCell(d.objects, r.dungeon.objects, who, t);
    } else if dest.Item? {
      var r := Move(d, who, dx, dy);
      EnterGoldCell(d.objects, r.dungeon.objects, who, dest.index, r.mover, t);
    } else {
      assert Move(d, who, dx, dy).dungeon == d;
    }
  }

  lemma EnterEmptyCell(objs: seq<Obj>, objs': seq<Obj>, who: nat, t: Cell)
    requires OnePerCell(objs) && who < |objs| && |objs'| == |objs|
    requires Empty(objs, t.0, t.1) && objs'[who].At(t.0, t.1)
    requires forall j :: 0 <= j < |objs| && j != who ==> objs'[j] == objs[j]
    ensures OnePerCell(objs')
  {
    forall a, b | 0 <= a < b < |objs'|
      ensures !objs'[b].At(objs'[a].x, objs'[a].y)
    {
      if a != who && b != who {
        assert objs'[a] == objs[a] && objs'[b] == objs[b];
      } else if a == who {
        assert objs'[b] == objs[b] && !objs[b].At(t.0, t.1);
      } else {
        assert objs'[a] == objs[a] && !objs[a].At(t.0, t.1);
      }
    }
  }

  lemma EnterGoldCell(objs: seq<Obj>, objs': seq<Obj>, who: nat, i: nat, mover: nat, t: Cell)
    requires OnePerCell(objs) && who < |objs| && i < |objs| && who != i
    requires FirstAt(objs, i, t.0, t.1)
    requires |objs'| == |objs| - 1 && mover == Shift(who, i) && objs'[mover].At(t.0, t.1)
    requires forall j :: 0 <= j < |objs| && j != who && j != i ==> objs'[Shift(j, i)] == objs[j]
    ensures OnePerCell(objs')
  {
    // The gold is the only object on the target cell.
    forall j | 0 <= j < |objs| && j != i
      ensures !objs[j].At(t.0, t.1)
    {
      if j > i {
        assert !objs[j].At(objs[i].x, objs[i].y);
      }
    }
    forall a, b | 0 <= a < b < |objs'|
      ensures !objs'[b].At(objs'[a].x, objs'[a].y)
    {
      var ka := Unshift(a, i);
      var kb := Unshift(b, i);
      assert ka < kb;
      if a != mover && b != mover {
        assert ka != who && kb != who;
        assert objs'[a] == objs[ka] && objs'[b] == objs[kb];
      } else if a == mover {
        assert kb != who;
        assert objs'[b] == objs[kb];
      } else {
        assert ka != who;
        assert objs'[a] == objs[ka];
      }
    }
  }

  /** What an object contributes to the gold in play: a pile's amount, a
      character's `gold` stat. */
  function Worth(o: Obj): int
  {
    match o
    case Gold(_, _, a) => a
    case Player(_, _, s) => s.gold.GetOr(0)
    case Goblin(_, _, s) => s.gold.GetOr(0)
  }

  /** All the gold in the dungeon: on the floor and in purses. */
  function Wealth(objs: seq<Obj>): int
  {
    if |objs| == 0 then 0 else Worth(objs[0]) + Wealth(objs[1..])
  }

  lemma {:induction false} WealthAppend(a: seq<Obj>, b: seq<Obj>)
    ensures Wealth(a + b) == Wealth(a) + Wealth(b)
    decreases |a|
  {
    if |a| > 0 {
      assert (a + b)[1..] == a[1..] + b;
      WealthAppend(a[1..], b);
    } else {
      assert a + b == b;
    }
  }

  lemma {:induction false} WealthUpdate(s: seq<Obj>, k: nat, v: Obj)
    requires k < |s|
    ensures Wealth(s[k := v]) == Wealth(s) - Worth(s[k]) + Worth(v)
    decreases |s|
  {
    if k > 0 {
      assert s[k := v][1..] == s[1..][k - 1 := v];
      WealthUpdate(s[1..], k - 1, v);
    } else {
      assert s[k := v][1..] == s[1..];
    }
  }

  lemma WealthRemove(s: seq<Obj>, i: nat)
    requires i < |s|
    ensures Wealth(RemoveAt(s, i)) == Wealth(s) - Worth(s[i])
  {
    var front, back := s[..i], s[i + 1..];
    assert s == front + s[i..];
    WealthAppend(front, s[i..]);
    assert s[i..][0] == s[i] && s[i..][1..] == back;
    WealthAppend(front, back);
  }

  /** No move creates or destroys gold: a pickup moves the pile's amount
      into the player's purse.  Goblins carry no purse and never pick
      anything up; a player whose record lacked `gold` would lose the
      pile, so a moving player's purse must exist. */
  lemma MoveConservesGold(d: Dungeon, who: nat, dx: int, dy: int)
    requires Valid(d) && who < |d.objects| && d.objects[who].IsCharacter()
    requires d.objects[who].Player? ==> d.objects[who].stats.gold.Some?
    ensures Wealth(Move(d, who, dx, dy).dungeon.objects) == Wealth(d.objects)
  {
    var o := d.objects[who];
    var dest := CanMoveTo(d, o.x + dx, o.y + dy);
    var r := Move(d, who, dx, dy);
    if dest.Blocked? {
      assert r.dungeon == d;
    } else if dest.Item? && o.HasPickUp() {
      PickupMoveConservesGold(d, who, dx, dy);
    } else {
      StepConservesGold(d, who, dx, dy);
    }
  }

  /** A move onto a pile the mover picks up. */
  lemma PickupMoveConservesGold(d: Dungeon, who: nat, dx: int, dy: int)
    requires Valid(d) && who < |d.objects| && d.objects[who].IsCharacter()
    requires d.objects[who].Player? && d.objects[who].stats.gold.Some?
    requires CanMoveTo(d, d.objects[who].x + dx, d.objects[who].y + dy).Item?
    ensures Wealth(Move(d, who, dx, dy).dungeon.objects) == Wealth(d.objects)
  {
    var o := d.objects[who];
    var i := CanMoveTo(d, o.x + dx, o.y + dy).index;
    var r := Move(d, who, dx, dy);
    var m := Relocate(o, o.x + dx, o.y + dy);
    assert m.stats == o.stats;
    PickupConservesGold(d.objects, r.dungeon.objects, who, i, m);
  }

  /** A move onto a free cell, or onto a pile the mover leaves. */
  lemma StepConservesGold(d: Dungeon, who: nat, dx: int, dy: int)
    requires Valid(d) && who < |d.objects| && d.objects[who].IsCharacter()
    requires var dest := CanMoveTo(d, d.objects[who].x + dx, d.objects[who].y + dy);
      dest.Free? || (dest.Item? && !d.objects[who].HasPickUp())
    ensures Wealth(Move(d, who, dx, dy).dungeon.objects) == Wealth(d.objects)
  {
    var o := d.objects[who];
    var r := StepFrame(d, who, dx, dy);
    var m := Relocate(o, o.x + dx, o.y + dy);
    WealthFrame(d.objects, r.dungeon.objects, who, m);
  }

  /** A list equal to `s` except at `k`, where it holds `v`. */
  lemma WealthFrame(s: seq<Obj>, s': seq<Obj>, k: nat, v: Obj)
    requires k < |s| == |s'| && s'[k] == v
    requires forall j :: 0 <= j < |s| && j != k ==> s'[j] == s[j]
    ensures Wealth(s') == Wealth(s) - Worth(s[k]) + Worth(v)
  {
    assert s' == s[k := v];
    WealthUpdate(s, k, v);
  }

  lemma PickupConservesGold(objs: seq<Obj>, objs': seq<Obj>, who: nat, i: nat, m: Obj)
    requires who < |objs| && i < |objs| && who != i && |objs'| == |objs| - 1
    requires m.Player? && Worth(m) == Worth(objs[who]) && m.stats.gold.Some? && objs[i].Gold?
    requires objs'[Shift(who, i)] == AddGold(m, objs[i].amount)
    requires forall j :: 0 <= j < |objs| && j != who && j != i ==> objs'[Shift(j, i)] == objs[j]
    ensures Wealth(objs') == Wealth(objs)
  {
    var paid := objs[who := AddGold(m, objs[i].amount)];
    SplicedIsRemoveAt(paid, objs', who, i);
    WealthUpdate(objs, who, AddGold(m, objs[i].amount));
    WealthRemove(paid, i);
  }

  /** A list related to `s` the way a pickup's result is, is `s` with
      index `i` spliced out. */
  lemma SplicedIsRemoveAt(s: seq<Obj>, t: seq<Obj>, who: nat, i: nat)
    requires who < |s| && i < |s| && who != i && |t| == |s| - 1
    requires t[Shift(who, i)] == s[who]
    requires forall j :: 0 <= j < |s| && j != who && j != i ==> t[Shift(j, i)] == s[j]
    ensures t == RemoveAt(s, i)
  {
    forall j | 0 <= j < |t|
      ensures t[j] == RemoveAt(s, i)[j]
    {
      var k := Unshift(j, i);
      assert RemoveAt(s, i)[Shift(k, i)] == s[k];
    }
  }

  /** A goblin has no `pickUp`: stepping onto gold leaves the pile in the
      list, on the goblin's own cell. */
  lemma GoblinLeavesGold(d: Dungeon, who: nat, dx: int, dy: int)
    requires Valid(d) && who < |d.objects| && d.objects[who].Goblin?
    requires CanMoveTo(d, d.objects[who].x + dx, d.objects[who].y + dy).Item?
    ensures var i := CanMoveTo(d, d.objects[who].x + dx, d.objects[who].y + dy).index;
      var objs' := Move(d, who, dx, dy).dungeon.objects;
      && |objs'| == |d.objects| && objs'[i] == d.objects[i] && objs'[i].Gold?
      && objs'[who].At(objs'[i].x, objs'[i].y)
      && !OnePerCell(objs')
  {
    var i := CanMoveTo(d, d.objects[who].x + dx, d.objects[who].y + dy).index;
    var objs' := Move(d, who, dx, dy).dungeon.objects;
    assert i != who;
    if i < who {
      assert objs'[who].At(objs'[i].x, objs'[i].y);
    } else {
      assert objs'[i].At(objs'[who].x, objs'[who].y);
    }
  }
}

=== FILE: objects.dfy ===
/** The objects that stand on the map (player, goblins, gold), the stat
    records characters are built from, and the collision lookup. */
module Objects {
  import opened Grid

  /** A stat record as `STATS` holds it.  Every key of the record becomes
      a field of the character; a key the record lacks is `None`. */
  datatype Stats = Stats(health: int, speed: int, attack: int, defend: int,
                         xp: Option<int>, gold: Option<int>)

  /** `STATS.player`. */
  function PlayerStats(): Stats
  {
    Stats(20, 3, 5, 4, Some(0), Some(0))
  }

  /** `STATS.goblin`: no `xp` and no `gold` keys. */
  function GoblinStats(): Stats
  {
    Stats(3, 4, 3, 1, None, None)
  }

  /** The amount every `'*'` on the map is worth. */
  const GoldAmount: int := 25

  /** A map object.  `Player` and `Goblin` are characters that can move;
      `Gold` is the only object with `canPickUp`. */
  datatype Obj =
    | Player(x: int, y: int, stats: Stats)
    | Goblin(x: int, y: int, stats: Stats)
    | Gold(x: int, y: int, amount: int)
  {
    predicate IsCharacter()
    {
      Player? || Goblin?
    }

    /** `canPickUp`: set by the `Gold` constructor, absent elsewhere. */
    predicate CanPickUp()
    {
      Gold?
    }

    /** Only `Player` defines `pickUp`. */
    predicate HasPickUp()
    {
      Player?
    }

    predicate At(cx: int, cy: int)
    {
      x == cx && y == cy
    }
  }

  /** `new Gold(x, y, amount)`. */
  function NewGold(x: int, y: int, amount: int): (g: Obj)
    ensures g.CanPickUp() && !g.IsCharacter()
    ensures g.At(x, y) && g.amount == amount
  {
    Gold(x, y, amount)
  }

  /** The `Character` constructor: position plus a copy of every stat key. */
  function NewPlayer(x: int, y: int, data: Stats): (p: Obj)
    ensures p.IsCharacter() && p.HasPickUp() && !p.CanPickUp()
    ensures p.At(x, y) && p.stats == data
  {
    Player(x, y, data)
  }

  function NewGoblin(x: int, y: int, data: Stats): (g: Obj)
    ensures g.IsCharacter() && !g.HasPickUp() && !g.CanPickUp()
    ensures g.At(x, y) && g.stats == data
  {
    Goblin(x, y, data)
  }

  /** `checkCollision(arr, x, y)` scanning from index `i`. */
  function CollisionFrom(objs: seq<Obj>, x: int, y: int, i: nat): (r: Option<nat>)
    requires i <= |objs|
    ensures r.Some? ==> i <= r.value < |objs| && objs[r.value].At(x, y)
    ensures r.Some? ==> forall j :: i <= j < r.value ==> !objs[j].At(x, y)
    ensures r.None? <==> forall j :: i <= j < |objs| ==> !objs[j].At(x, y)
    decreases |objs| - i
  {
    if i == |objs| then None
    else if objs[i].At(x, y) then Some(i)
    else CollisionFrom(objs, x, y, i + 1)
  }

  /** `checkCollision(arr, x, y)`: the index of the first object standing
      on `(x, y)`, or `None` for `undefined`.  The list is a value, so the
      lookup cannot change it. */
  function CheckCollision(objs: seq<Obj>, x: int, y: int): (r: Option<nat>)
    ensures r.Some? ==> r.value < |objs| && objs[r.value].At(x, y)
    ensures r.Some? ==> forall j :: 0 <= j < r.value ==> !objs[j].At(x, y)
    ensures r.None? <==> forall j :: 0 <= j < |objs| ==> !objs[j].At(x, y)
  {
    CollisionFrom(objs, x, y, 0)
  }

  /** At most one object on every coordinate. */
  predicate OnePerCell(objs: seq<Obj>)
  {
    forall i, j :: 0 <= i < j < |objs| ==> !objs[j].At(objs[i].x, objs[i].y)
  }

  /** Under `OnePerCell` the first object found on a cell is the only one. */
  lemma CollisionIsUnique(objs: seq<Obj>, x: int, y: int, k: nat)
    requires OnePerCell(objs)
    requires k < |objs| && objs[k].At(x, y)
    ensures CheckCollision(objs, x, y) == Some(k)
  {
  }
}

=== FILE: scan.dfy ===
/** The row-major scan both map parsers perform: visit every row from
    the top, every column from the left, and collect the cells whose
    character is one of a wanted set. */
module Scan {
  import opened Grid

  /** How far a row is scanned.  The newer `Dungeon` constructor scans
      `maxX = map[0].length` columns of every row; the older
      `_findObjects` scans each row up to its own length. */
  datatype Extent = FirstRowWidth | OwnRowLength

  function Limit(grid: Map, e: Extent, y: int): nat
    requires HasRow(grid, y)
  {
    match e
    case FirstRowWidth => |grid[0]|
    case OwnRowLength => |grid[y]|
  }

  /** Cell `(x, y)` is visited by the scan and its character is wanted.
      A column past the row's end reads `undefined`, which matches nothing. */
  predicate Holds(grid: Map, e: Extent, wanted: set<char>, x: int, y: int)
  {
    HasRow(grid, y) && 0 <= x < Limit(grid, e, y) && CharAt(grid, x, y).Some?
    && CharAt(grid, x, y).value in wanted
  }

  /** Reading order: top to bottom, then left to right. */
  predicate Before(a: Cell, b: Cell)
  {
    a.1 < b.1 || (a.1 == b.1 && a.0 < b.0)
  }

  predicate RowMajor(s: seq<Cell>)
  {
    forall i, j :: 0 <= i < j < |s| ==> Before(s[i], s[j])
  }

  /** Cells in strict reading order are pairwise distinct. */
  lemma RowMajorHasNoDuplicates(s: seq<Cell>)
    requires RowMajor(s)
    ensures NoDuplicates(s)
  {
  }

  /** The wanted cells of row `y` from column `x` on, left to right. */
  function FindInRow(grid: Map, e: Extent, wanted: set<char>, y: int, x: nat): (r: seq<Cell>)
    requires HasRow(grid, y)
    ensures RowMajor(r)
    ensures forall c :: c in r <==> c.1 == y && x <= c.0 && Holds(grid, e, wanted, c.0, c.1)
    decreases Limit(grid, e, y) - x
  {
    if x >= Limit(grid, e, y) then []
    else
      var here := if x < |grid[y]| && grid[y][x] in wanted then [(x, y)] else [];
      here + FindInRow(grid, e, wanted, y, x + 1)
  }

  /** The wanted cells of rows `y` and below, in reading order. */
  function FindFrom(grid: Map, e: Extent, wanted: set<char>, y: nat): (r: seq<Cell>)
    requires y <= |grid|
    ensures RowMajor(r)
    ensures forall c :: c in r <==> y <= c.1 && Holds(grid, e, wanted, c.0, c.1)
    decreases |grid| - y
  {
    if y == |grid| then []
    else FindInRow(grid, e, wanted, y, 0) + FindFrom(grid, e, wanted, y + 1)
  }

  /** Every wanted cell of the map, in reading order, each once. */
  function Find(grid: Map, e: Extent, wanted: set<char>): (r: seq<Cell>)
    ensures RowMajor(r) && NoDuplicates(r)
    ensures forall c :: c in r <==> Holds(grid, e, wanted, c.0, c.1)
  {
    var r := FindFrom(grid, e, wanted, 0);
    RowMajorHasNoDuplicates(r);
    r
  }
}

=== FILE: visibility.dfy ===
/** `_findVisibleTiles`: a breadth-first flood from the player's cell in
    which a tile is shown when the straight line from it back to the
    player passes only through tiles already found visible.  Walls are
    shown whenever the flood reaches them but never pass it on. */
module Visibility {
  import opened Grid
  import Scan
  import Dungeon

  /** Which cells the flood may enqueue.  The source admits
      `0 <= x <= maxX` and `0 <= y <= maxY`, one column and one row past
      the map; `Exclusive` is the rectangle of the map itself. */
  datatype Bound = Inclusive | Exclusive

  predicate Admits(grid: Map, bound: Bound, c: Cell)
    requires |grid| > 0
  {
    && 0 <= c.0 && 0 <= c.1
    && match bound
       case Inclusive => c.0 <= MaxX(grid) && c.1 <= MaxY(grid)
       case Exclusive => c.0 < MaxX(grid) && c.1 < MaxY(grid)
  }

  /** Every cell either bound admits; a finite set, so the flood ends. */
  function Box(grid: Map): (b: set<Cell>)
    requires |grid| > 0
    ensures forall bound, c :: Admits(grid, bound, c) ==> c in b
  {
    set x, y | 0 <= x <= MaxX(grid) && 0 <= y <= MaxY(grid) :: (x, y)
  }

  // ---------------------------------------------------------------------
  // The line test

  /** `Math.abs(Math.abs(dx) > Math.abs(dy) ? dx : dy)`: the number of
      steps along the longer axis. */
  function LineLength(dx: int, dy: int): (n: nat)
    ensures n >= Abs(dx) && n >= Abs(dy)
    ensures n == Abs(dx) || n == Abs(dy)
  {
    Abs(if Abs(dx) > Abs(dy) then dx else dy)
  }

  /** `Math.round(i / len * d)`: the nearest integer, halves rounded up,
      written exactly as `floor((2 i d + len) / (2 len))`. */
  function RoundedOffset(i: int, d: int, len: int): int
    requires len > 0
  {
    (2 * i * d + len) / (2 * len)
  }

  /** Integer division is pinned down by its quotient's bracket. */
  lemma DivBracket(a: int, b: int, q: int)
    requires b > 0 && q * b <= a < (q + 1) * b
    ensures a / b == q
  {
    var r := a / b;
    assert a == r * b + a % b;
    if r < q {
      MulMonotone(r + 1, q, b);
    } else if r > q {
      MulMonotone(q + 1, r, b);
    }
  }

  /** `RoundedOffset` is the integer nearest to `i d / len`, halves
      rounded up: `i d / len` lies in `[r - 1/2, r + 1/2)`. */
  lemma RoundedOffsetIsRound(i: int, d: int, len: int)
    requires len > 0
    ensures var r := RoundedOffset(i, d, len);
      (2 * r - 1) * len <= 2 * i * d < (2 * r + 1) * len
  {
    var r := RoundedOffset(i, d, len);
    var a := 2 * i * d + len;
    assert a == r * (2 * len) + a % (2 * len);
    assert r * (2 * len) == 2 * r * len;
    assert (2 * r - 1) * len == 2 * r * len - len;
    assert (2 * r + 1) * len == 2 * r * len + len;
  }

  /** Point `i` of the line from `c` towards the player at `p`. */
  function Sample(p: Cell, c: Cell, i: int): Cell
  {
    var dx := p.0 - c.0;
    var dy := p.1 - c.1;
    var len := LineLength(dx, dy);
    if len == 0 then c
    else (c.0 + RoundedOffset(i, dx, len), c.1 + RoundedOffset(i, dy, len))
  }

  /** When `i d / len` is a whole number `q`, rounding gives `q`. */
  lemma RoundedExact(i: int, d: int, len: int, q: int)
    requires len > 0 && i * d == q * len
    ensures RoundedOffset(i, d, len) == q
  {
    var a := 2 * i * d + len;
    assert a == q * (2 * len) + len;
    assert (q + 1) * (2 * len) == q * (2 * len) + 2 * len;
    DivBracket(a, 2 * len, q);
  }

  /** The line starts at the candidate tile and ends on the player. */
  lemma SampleEnds(p: Cell, c: Cell)
    ensures Sample(p, c, 0) == c
    ensures Sample(p, c, LineLength(p.0 - c.0, p.1 - c.1)) == p
  {
    var dx := p.0 - c.0;
    var dy := p.1 - c.1;
    var len := LineLength(dx, dy);
    if len > 0 {
      RoundedExact(0, dx, len, 0);
      RoundedExact(0, dy, len, 0);
      RoundedExact(len, dx, len, dx);
      RoundedExact(len, dy, len, dy);
    }
  }

  /** Along the longer axis the line moves exactly one cell per point, so
      no two of its points share a cell. */
  lemma SampleMajorAxis(p: Cell, c: Cell, i: int)
    ensures var len := LineLength(p.0 - c.0, p.1 - c.1);
      len > 0 && Abs(p.0 - c.0) >= Abs(p.1 - c.1) ==> Sample(p, c, i).0 == c.0 + (if p.0 > c.0 then i else -i)
    ensures var len := LineLength(p.0 - c.0, p.1 - c.1);
      len > 0 && Abs(p.1 - c.1) >= Abs(p.0 - c.0) ==> Sample(p, c, i).1 == c.1 + (if p.1 > c.1 then i else -i)
  {
    var dx := p.0 - c.0;
    var dy := p.1 - c.1;
    var len := LineLength(dx, dy);
    if len > 0 && Abs(dx) >= Abs(dy) {
      StepsOnePerPoint(i, dx, len);
    }
    if len > 0 && Abs(dy) >= Abs(dx) {
      StepsOnePerPoint(i, dy, len);
    }
  }

  /** On an axis as long as the line, point `i` is `i` cells along. */
  lemma StepsOnePerPoint(i: int, d: int, len: int)
    requires len > 0 && Abs(d) == len
    ensures RoundedOffset(i, d, len) == (if d > 0 then i else -i)
  {
    var q := if d > 0 then i else -i;
    if d < 0 {
      assert d + len == 0;
      assert i * d == -(i * len);
    }
    RoundedExact(i, d, len, q);
  }

  /** `visitedTiles[key]` is truthy. */
  predicate Marked(marks: map<Cell, bool>, c: Cell)
  {
    c in marks && marks[c]
  }

  /** Every inner point of the line from `c` to `p` is marked visible. */
  predicate LineClear(marks: map<Cell, bool>, p: Cell, c: Cell)
  {
    forall i :: 1 <= i < LineLength(p.0 - c.0, p.1 - c.1) ==> Marked(marks, Sample(p, c, i))
  }

  /** The inner loop of the flood: walk the line, stop at the first point
      not yet known to be visible. */
  method TestLine(marks: map<Cell, bool>, p: Cell, c: Cell) returns (visible: bool)
    ensures visible <==> LineClear(marks, p, c)
  {
    var len := LineLength(p.0 - c.0, p.1 - c.1);
    visible := true;
    var i := 1;
    while i < len
      invariant 1 <= i
      invariant visible <==> forall j :: 1 <= j < i && j < len ==> Marked(marks, Sample(p, c, j))
      invariant !visible ==> !LineClear(marks, p, c)
      decreases len - i, visible
    {
      if !Marked(marks, Sample(p, c, i)) {
        visible := false;
        break;
      }
      i := i + 1;
    }
  }

  // ---------------------------------------------------------------------
  // Enqueuing neighbours

  /** One of the four cells a step from `c`. */
  predicate Adjacent(c: Cell, n: Cell)
  {
    || n == Step(c, Deltas()[0]) || n == Step(c, Deltas()[1])
    || n == Step(c, Deltas()[2]) || n == Step(c, Deltas()[3])
  }

  /** The neighbours of `c` from direction `i` on that the flood enqueues:
      admitted and never seen before, in `DELTAS` order. */
  function Fresh(grid: Map, bound: Bound, c: Cell, marks: map<Cell, bool>, i: nat): (r: seq<Cell>)
    requires |grid| > 0 && i <= 4
    ensures NoDuplicates(r)
    ensures forall k :: k in r ==> k !in marks && Admits(grid, bound, k) && Adjacent(c, k)
    ensures forall j :: i <= j < 4 && Admits(grid, bound, Step(c, Deltas()[j])) && Step(c, Deltas()[j]) !in marks
                        ==> Step(c, Deltas()[j]) in r
    ensures forall j :: 0 <= j < i ==> Step(c, Deltas()[j]) !in r
    decreases 4 - i
  {
    if i == 4 then []
    else
      var n := Step(c, Deltas()[i]);
      var rest := Fresh(grid, bound, c, marks, i + 1);
      assert n !in rest;
      if Admits(grid, bound, n) && n !in marks then [n] + rest else rest
  }

  /** The admitted neighbours of `c` from direction `i` on, in `DELTAS`
      order. */
  function Around(grid: Map, bound: Bound, c: Cell, i: nat): (r: seq<Cell>)
    requires |grid| > 0 && i <= 4
    ensures forall k :: k in r ==> Admits(grid, bound, k) && Adjacent(c, k)
    decreases 4 - i
  {
    if i == 4 then []
    else
      var n := Step(c, Deltas()[i]);
      (if Admits(grid, bound, n) then [n] else []) + Around(grid, bound, c, i + 1)
  }

  /** While only the player's cell is in `visitedTiles`, every admitted
      neighbour of the player is fresh. */
  lemma {:induction false} FreshAroundStart(grid: Map, bound: Bound, p: Cell, i: nat)
    requires |grid| > 0 && i <= 4
    ensures Fresh(grid, bound, p, map[p := true], i) == Around(grid, bound, p, i)
    decreases 4 - i
  {
    if i < 4 {
      var n := Step(p, Deltas()[i]);
      StepBack(p, i);
      assert n !in map[p := true];
      FreshAroundStart(grid, bound, p, i + 1);
    }
  }

  /** Removing one more member of a set from a difference shrinks it by one. */
  lemma DifferenceShrinks(box: set<Cell>, keys: set<Cell>, n: Cell)
    requires n in box && n !in keys
    ensures |box - (keys + {n})| == |box - keys| - 1
  {
    assert box - keys == (box - (keys + {n})) + {n};
  }

  /** Adding the distinct cells of `q`, none of them a key yet, removes
      `|q|` cells from what is left of the box. */
  lemma {:induction false} AddKeys(box: set<Cell>, keys: set<Cell>, q: seq<Cell>)
    requires NoDuplicates(q)
    requires forall k :: k in q ==> k in box && k !in keys
    ensures |box - (keys + set k | k in q)| == |box - keys| - |q|
    decreases |q|
  {
    if |q| > 0 {
      var rest := q[1..];
      assert NoDuplicates(rest) by {
        forall i, j | 0 <= i < j < |rest| ensures rest[i] != rest[j] {
          assert rest[i] == q[i + 1] && rest[j] == q[j + 1];
        }
      }
      assert q[0] !in rest by {
        forall i | 0 <= i < |rest| ensures rest[i] != q[0] {
          assert rest[i] == q[i + 1];
        }
      }
      AddKeys(box, keys + {q[0]}, rest);
      DifferenceShrinks(box, keys, q[0]);
      assert (keys + {q[0]}) + (set k | k in rest) == keys + (set k | k in q);
    }
  }

  /** `visitedTiles[k] = false` for every `k` of `q`. */
  function MarkHidden(marks: map<Cell, bool>, q: seq<Cell>): (m: map<Cell, bool>)
    requires forall k :: k in q ==> k !in marks
    ensures m.Keys == marks.Keys + set k | k in q
    ensures forall k :: k in marks ==> m[k] == marks[k]
    ensures forall k :: k in q ==> !m[k]
  {
    marks + map k | k in q :: false
  }

  /** The `for` over `DELTAS`: every admitted neighbour not yet in
      `visitedTiles` is recorded as not visible and queued.  The loop
      tests each neighbour against the entries made by earlier turns as
      well, but the four neighbours are distinct, so testing against the
      entries from before the loop (as `Fresh` does) gives the same list. */
  method Expand(grid: Map, bound: Bound, c: Cell, marks: map<Cell, bool>, frontier: seq<Cell>)
    returns (marks': map<Cell, bool>, frontier': seq<Cell>)
    requires |grid| > 0
    ensures frontier' == frontier + Fresh(grid, bound, c, marks, 0)
    ensures forall k :: k in marks' <==> k in marks || k in Fresh(grid, bound, c, marks, 0)
    ensures forall k :: k in marks ==> marks'[k] == marks[k]
    ensures forall k :: k in marks' && k !in marks ==> !marks'[k]
    ensures Covered(grid, bound, marks', c)
    ensures |Box(grid) - marks'.Keys| + |frontier'| == |Box(grid) - marks.Keys| + |frontier|
  {
    var queued := Fresh(grid, bound, c, marks, 0);
    marks' := MarkHidden(marks, queued);
    frontier' := frontier + queued;
    AddKeys(Box(grid), marks.Keys, queued);
  }

  // ---------------------------------------------------------------------
  // The flood

  /** What `_findVisibleTiles` produces: the list of visible tiles, or the
      `TypeError` raised by reading `map[y][x]` for a row `y` that does
      not exist. */
  datatype Visible = Tiles(cells: seq<Cell>) | RowUndefined(row: int)

  /** A tile the flood has opened: shown and not a wall. */
  predicate Opened(grid: Map, shown: seq<Cell>, k: Cell)
  {
    k in shown && !IsWall(grid, k)
  }

  /** `visitedTiles[k]` is `true` exactly for the player's cell and the
      opened tiles. */
  predicate Lit(grid: Map, p: Cell, shown: seq<Cell>, k: Cell)
  {
    k == p || Opened(grid, shown, k)
  }

  /** Every inner point of the line from `c` to the player is lit. */
  predicate LitLine(grid: Map, p: Cell, shown: seq<Cell>, c: Cell)
  {
    forall i :: 1 <= i < LineLength(p.0 - c.0, p.1 - c.1) ==> Lit(grid, p, shown, Sample(p, c, i))
  }

  /** `c` is one step from an opened tile. */
  predicate Reached(grid: Map, shown: seq<Cell>, c: Cell)
  {
    || Opened(grid, shown, Back(c, 0)) || Opened(grid, shown, Back(c, 1))
    || Opened(grid, shown, Back(c, 2)) || Opened(grid, shown, Back(c, 3))
  }

  /** Every admitted neighbour of `c` has an entry in `visitedTiles`. */
  predicate Covered(grid: Map, bound: Bound, marks: map<Cell, bool>, c: Cell)
    requires |grid| > 0
  {
    forall j :: 0 <= j < 4 && Admits(grid, bound, Step(c, Deltas()[j])) ==> Step(c, Deltas()[j]) in marks
  }

  // The state of the `while` loop (`visitedTiles`, the queue and the
  // tiles shown so far) is described by five groups of facts.

  /** `visitedTiles`: true exactly where lit, every key admitted, every
      shown tile a key on an existing row. */
  ghost predicate MarksInv(grid: Map, p: Cell, bound: Bound, marks: map<Cell, bool>, shown: seq<Cell>)
    requires |grid| > 0
  {
    && (forall k :: Marked(marks, k) <==> Lit(grid, p, shown, k))
    && p in marks
    && (forall k :: k in marks ==> k == p || Admits(grid, bound, k))
    && (forall k :: k in shown ==> k in marks && HasRow(grid, k.1))
  }

  /** The queue: keys not yet shown, each once; a wall that has a key is
      shown or still queued. */
  ghost predicate QueueInv(grid: Map, marks: map<Cell, bool>, frontier: seq<Cell>, shown: seq<Cell>)
  {
    && (forall i :: 0 <= i < |frontier| ==> frontier[i] in marks && frontier[i] !in shown)
    && NoDuplicates(frontier) && NoDuplicates(shown)
    && (forall k :: k in marks && IsWall(grid, k) ==> k in shown || k in frontier)
  }

  /** Why each tile was shown and queued: a shown floor tile's line was
      lit when its line was checked, and every tile but the player's was reached
      from an opened tile. */
  ghost predicate HistoryInv(grid: Map, p: Cell, frontier: seq<Cell>, shown: seq<Cell>)
  {
    && (forall i :: 0 <= i < |shown| && !IsWall(grid, shown[i]) ==> LitLine(grid, p, shown[..i], shown[i]))
    && (forall i :: 0 <= i < |shown| && shown[i] != p ==> Reached(grid, shown[..i], shown[i]))
    && (forall i :: 0 <= i < |frontier| && frontier[i] != p ==> Reached(grid, shown, frontier[i]))
  }

  /** Every opened tile has had its neighbours enqueued. */
  ghost predicate CoverInv(grid: Map, bound: Bound, marks: map<Cell, bool>, shown: seq<Cell>)
    requires |grid| > 0
  {
    forall k :: Opened(grid, shown, k) ==> Covered(grid, bound, marks, k)
  }

  /** The first pop is the player's cell; after it, a player on a wall
      ends the flood and a player on floor has had every admitted
      neighbour shown or queued. */
  ghost predicate StartInv(grid: Map, p: Cell, bound: Bound, marks: map<Cell, bool>, frontier: seq<Cell>, shown: seq<Cell>)
    requires |grid| > 0
  {
    && (|shown| == 0 ==> frontier == [p] && marks == map[p := true])
    && (|shown| > 0 ==> shown[0] == p)
    && (|shown| > 0 && IsWall(grid, p) ==> shown == [p] && frontier == [])
    && (|shown| > 0 && !IsWall(grid, p) ==>
          forall j :: 0 <= j < 4 && Admits(grid, bound, Step(p, Deltas()[j])) ==>
            Step(p, Deltas()[j]) in shown || Step(p, Deltas()[j]) in frontier)
  }

  lemma InvInit(grid: Map, p: Cell, bound: Bound)
    requires |grid| > 0
    ensures MarksInv(grid, p, bound, map[p := true], [])
    ensures QueueInv(grid, map[p := true], [p], [])
    ensures HistoryInv(grid, p, [p], [])
    ensures CoverInv(grid, bound, map[p := true], [])
    ensures StartInv(grid, p, bound, map[p := true], [p], [])
    ensures OrderInv(grid, p, bound, [p], [])
  {
  }

  lemma PrefixOfAppend(s: seq<Cell>, c: Cell)
    ensures forall i :: 0 <= i <= |s| ==> (s + [c])[..i] == s[..i]
  {
    forall i | 0 <= i <= |s| ensures (s + [c])[..i] == s[..i] {
      assert forall j :: 0 <= j < i ==> (s + [c])[..i][j] == s[j];
    }
  }

  lemma TailNoDuplicates(s: seq<Cell>)
    requires |s| > 0 && NoDuplicates(s)
    ensures NoDuplicates(s[1..]) && s[0] !in s[1..]
  {
    forall i, j | 0 <= i < j < |s| - 1 ensures s[1..][i] != s[1..][j] {
      assert s[1..][i] == s[i + 1] && s[1..][j] == s[j + 1];
    }
  }

  lemma ConcatNoDuplicates(a: seq<Cell>, b: seq<Cell>)
    requires NoDuplicates(a) && NoDuplicates(b)
    requires forall k :: k in b ==> k !in a
    ensures NoDuplicates(a + b)
  {
    forall i, j | 0 <= i < j < |a + b| ensures (a + b)[i] != (a + b)[j] {
      if i < |a| && j >= |a| {
        assert (a + b)[j] == b[j - |a|] && b[j - |a|] in b;
      }
    }
  }

  /** Taking the head off the queue keeps the queue's facts, whether the
      head is shown (`shown' == shown + [head]`) or dropped. */
  lemma {:induction false} PopQueue(grid: Map, marks: map<Cell, bool>, frontier: seq<Cell>, shown: seq<Cell>, show: bool)
    requires QueueInv(grid, marks, frontier, shown) && |frontier| > 0
    requires !show ==> !IsWall(grid, frontier[0])
    ensures QueueInv(grid, marks, frontier[1..], if show then shown + [frontier[0]] else shown)
  {
    var c := frontier[0];
    var shown' := if show then shown + [c] else shown;
    TailNoDuplicates(frontier);
    forall i | 0 <= i < |frontier| - 1 ensures frontier[1..][i] in marks && frontier[1..][i] !in shown' {
      assert frontier[1..][i] == frontier[i + 1];
    }
    forall k | k in marks && IsWall(grid, k) ensures k in shown' || k in frontier[1..] {
      if k in frontier && k != c {
        var i :| 0 <= i < |frontier| && frontier[i] == k;
        assert frontier[1..][i - 1] == k;
      }
    }
    if show {
      assert c in frontier;
      forall i, j | 0 <= i < j < |shown'| ensures shown'[i] != shown'[j] {
        if j == |shown| {
          assert shown'[i] in shown;
        }
      }
    }
  }

  /** A wall at the head of the queue is shown: nothing is lit by it and
      the flood was led to it from an opened tile. */
  lemma {:induction false} PopWallHistory(grid: Map, p: Cell, frontier: seq<Cell>, shown: seq<Cell>)
    requires HistoryInv(grid, p, frontier, shown) && |frontier| > 0 && IsWall(grid, frontier[0])
    ensures HistoryInv(grid, p, frontier[1..], shown + [frontier[0]])
  {
    var c := frontier[0];
    var shown' := shown + [c];
    PrefixOfAppend(shown, c);
    forall i | 0 <= i < |shown'| && !IsWall(grid, shown'[i])
      ensures LitLine(grid, p, shown'[..i], shown'[i])
    {
      assert i < |shown|;
    }
    forall i | 0 <= i < |shown'| && shown'[i] != p
      ensures Reached(grid, shown'[..i], shown'[i])
    {
      if i == |shown| {
        assert Reached(grid, shown, frontier[0]);
      }
    }
    forall i | 0 <= i < |frontier| - 1 && frontier[1..][i] != p
      ensures Reached(grid, shown', frontier[1..][i])
    {
      assert Reached(grid, shown, frontier[i + 1]);
    }
  }

  lemma PopWallMarks(grid: Map, p: Cell, bound: Bound, marks: map<Cell, bool>, shown: seq<Cell>, c: Cell)
    requires |grid| > 0 && MarksInv(grid, p, bound, marks, shown)
    requires c in marks && IsWall(grid, c)
    ensures MarksInv(grid, p, bound, marks, shown + [c])
    ensures CoverInv(grid, bound, marks, shown) ==> CoverInv(grid, bound, marks, shown + [c])
  {
    forall k ensures Lit(grid, p, shown + [c], k) <==> Lit(grid, p, shown, k) {}
  }

  /** The head of the queue is the player's cell on the first pop and a
      neighbour of it on the next ones, so its line has no inner point. */
  lemma NearLineIsClear(marks: map<Cell, bool>, p: Cell, c: Cell)
    requires c == p || Adjacent(p, c)
    ensures LineClear(marks, p, c)
  {
    assert LineLength(p.0 - c.0, p.1 - c.1) <= 1;
  }

  lemma {:induction false} PopStart(grid: Map, p: Cell, bound: Bound, marks: map<Cell, bool>, frontier: seq<Cell>, shown: seq<Cell>)
    requires |grid| > 0 && StartInv(grid, p, bound, marks, frontier, shown) && |frontier| > 0
    requires IsWall(grid, frontier[0]) || !LineClear(marks, p, frontier[0])
    ensures var shown' := if IsWall(grid, frontier[0]) then shown + [frontier[0]] else shown;
      StartInv(grid, p, bound, marks, frontier[1..], shown')
  {
    var c := frontier[0];
    if |shown| == 0 {
      NearLineIsClear(marks, p, c);
      assert frontier[1..] == [];
    } else if !IsWall(grid, p) {
      forall j | 0 <= j < 4 && Admits(grid, bound, Step(p, Deltas()[j]))
        ensures var n := Step(p, Deltas()[j]);
          n in (if IsWall(grid, c) then shown + [c] else shown) || n in frontier[1..]
      {
        var n := Step(p, Deltas()[j]);
        if n == c {
          NearLineIsClear(marks, p, c);
        } else if n in frontier {
          var i :| 0 <= i < |frontier| && frontier[i] == n;
          assert frontier[1..][i - 1] == n;
        }
      }
    }
  }

  /** A lit line in `visitedTiles` is a line of lit tiles. */
  lemma ClearIsLit(grid: Map, p: Cell, bound: Bound, marks: map<Cell, bool>, shown: seq<Cell>, c: Cell)
    requires |grid| > 0 && MarksInv(grid, p, bound, marks, shown) && LineClear(marks, p, c)
    ensures LitLine(grid, p, shown, c)
  {
  }

  /** Opening the head `c`: `visitedTiles[c] = true`, then `Expand` from
      `marks[c := true]` produced `marks'` and queued `Fresh` after the
      rest of the queue.  These are the facts `Expand` guarantees. */
  ghost predicate Opening(grid: Map, bound: Bound, c: Cell, marks: map<Cell, bool>,
                          marks': map<Cell, bool>, rest: seq<Cell>, frontier': seq<Cell>)
    requires |grid| > 0
  {
    var m := marks[c := true];
    && frontier' == rest + Fresh(grid, bound, c, m, 0)
    && (forall k :: k in marks' <==> k in m || k in Fresh(grid, bound, c, m, 0))
    && (forall k :: k in m ==> marks'[k] == m[k])
    && (forall k :: k in marks' && k !in m ==> !marks'[k])
    && Covered(grid, bound, marks', c)
  }

  lemma {:induction false} OpenMarks(grid: Map, p: Cell, bound: Bound, marks: map<Cell, bool>, shown: seq<Cell>,
                                     c: Cell, marks': map<Cell, bool>, rest: seq<Cell>, frontier': seq<Cell>)
    requires |grid| > 0 && MarksInv(grid, p, bound, marks, shown)
    requires c in marks && HasRow(grid, c.1) && !IsWall(grid, c)
    requires Opening(grid, bound, c, marks, marks', rest, frontier')
    ensures MarksInv(grid, p, bound, marks', shown + [c])
    ensures marks'.Keys >= marks.Keys
  {
    var m := marks[c := true];
    var queued := Fresh(grid, bound, c, m, 0);
    forall k ensures Marked(marks', k) <==> Lit(grid, p, shown + [c], k) {
      if k == c {
        assert marks'[c] == m[c];
        assert Opened(grid, shown + [c], c);
      } else if k in marks {
        assert marks'[k] == m[k] == marks[k];
        assert Opened(grid, shown + [c], k) <==> Opened(grid, shown, k);
        assert Marked(marks, k) <==> Lit(grid, p, shown, k);
        assert Marked(marks', k) <==> Marked(marks, k);
      } else {
        assert k !in m && k !in shown && k != p;
        assert !Opened(grid, shown + [c], k);
        assert !Marked(marks', k);
      }
    }
    forall k | k in marks' ensures k == p || Admits(grid, bound, k) {
      if k !in m {
        assert k in queued;
      }
    }
  }

  lemma {:induction false} OpenQueue(grid: Map, bound: Bound, marks: map<Cell, bool>, frontier: seq<Cell>, shown: seq<Cell>,
                                     marks': map<Cell, bool>, frontier': seq<Cell>)
    requires |grid| > 0 && QueueInv(grid, marks, frontier, shown) && |frontier| > 0
    requires forall k :: k in shown ==> k in marks
    requires !IsWall(grid, frontier[0])
    requires Opening(grid, bound, frontier[0], marks, marks', frontier[1..], frontier')
    ensures QueueInv(grid, marks', frontier', shown + [frontier[0]])
  {
    var c := frontier[0];
    var m := marks[c := true];
    var queued := Fresh(grid, bound, c, m, 0);
    PopQueue(grid, marks, frontier, shown, true);
    var shown' := shown + [c];
    var rest := frontier[1..];
    forall i | 0 <= i < |frontier'| ensures frontier'[i] in marks' && frontier'[i] !in shown' {
      if i < |rest| {
        assert frontier'[i] == rest[i];
      } else {
        assert frontier'[i] == queued[i - |rest|] && queued[i - |rest|] in queued;
      }
    }
    ConcatNoDuplicates(rest, queued);
    forall k | k in marks' && IsWall(grid, k) ensures k in shown' || k in frontier' {
      if k in queued {
        var i :| 0 <= i < |queued| && queued[i] == k;
        assert frontier'[|rest| + i] == k;
      } else {
        assert k in marks;
        assert k in shown' || k in rest;
        if k in rest {
          var i :| 0 <= i < |rest| && rest[i] == k;
          assert frontier'[i] == k;
        }
      }
    }
  }

  lemma {:induction false} OpenHistory(grid: Map, p: Cell, bound: Bound, marks: map<Cell, bool>, frontier: seq<Cell>, shown: seq<Cell>,
                                       marks': map<Cell, bool>, frontier': seq<Cell>)
    requires |grid| > 0 && HistoryInv(grid, p, frontier, shown) && |frontier| > 0
    requires !IsWall(grid, frontier[0]) && LitLine(grid, p, shown, frontier[0])
    requires Opening(grid, bound, frontier[0], marks, marks', frontier[1..], frontier')
    ensures HistoryInv(grid, p, frontier', shown + [frontier[0]])
  {
    var c := frontier[0];
    var queued := Fresh(grid, bound, c, marks[c := true], 0);
    var shown' := shown + [c];
    var rest := frontier[1..];
    PrefixOfAppend(shown, c);
    forall i | 0 <= i < |shown'| && !IsWall(grid, shown'[i])
      ensures LitLine(grid, p, shown'[..i], shown'[i])
    {
      if i == |shown| {
        assert shown'[..i] == shown;
      }
    }
    forall i | 0 <= i < |shown'| && shown'[i] != p
      ensures Reached(grid, shown'[..i], shown'[i])
    {
      if i == |shown| {
        assert Reached(grid, shown, frontier[0]);
      }
    }
    assert Opened(grid, shown', c);
    StepBack(c, 0);
    StepBack(c, 1);
    StepBack(c, 2);
    StepBack(c, 3);
    forall i | 0 <= i < |frontier'| && frontier'[i] != p
      ensures Reached(grid, shown', frontier'[i])
    {
      if i < |rest| {
        assert frontier'[i] == frontier[i + 1];
        assert Reached(grid, shown, frontier[i + 1]);
      } else {
        assert frontier'[i] == queued[i - |rest|] && queued[i - |rest|] in queued;
        assert Adjacent(c, frontier'[i]);
      }
    }
  }

  lemma OpenCover(grid: Map, bound: Bound, marks: map<Cell, bool>, shown: seq<Cell>,
                  c: Cell, marks': map<Cell, bool>)
    requires |grid| > 0 && CoverInv(grid, bound, marks, shown)
    requires marks'.Keys >= marks.Keys && Covered(grid, bound, marks', c)
    ensures CoverInv(grid, bound, marks', shown + [c])
  {
    forall k | Opened(grid, shown + [c], k) ensures Covered(grid, bound, marks', k) {
      if k != c {
        assert Opened(grid, shown, k);
      }
    }
  }

  lemma {:induction false} OpenStart(grid: Map, p: Cell, bound: Bound, marks: map<Cell, bool>, frontier: seq<Cell>, shown: seq<Cell>,
                                     marks': map<Cell, bool>, frontier': seq<Cell>)
    requires |grid| > 0 && StartInv(grid, p, bound, marks, frontier, shown) && |frontier| > 0
    requires !IsWall(grid, frontier[0])
    requires Opening(grid, bound, frontier[0], marks, marks', frontier[1..], frontier')
    ensures StartInv(grid, p, bound, marks', frontier', shown + [frontier[0]])
  {
    var c := frontier[0];
    var m := marks[c := true];
    var queued := Fresh(grid, bound, c, m, 0);
    var rest := frontier[1..];
    if |shown| == 0 {
      assert c == p && m == map[p := true];
      forall j | 0 <= j < 4 && Admits(grid, bound, Step(p, Deltas()[j]))
        ensures Step(p, Deltas()[j]) in frontier'
      {
        StepBack(p, j);
        var n := Step(p, Deltas()[j]);
        assert n in queued;
        var i :| 0 <= i < |queued| && queued[i] == n;
        assert frontier'[|rest| + i] == n;
      }
    } else if !IsWall(grid, p) {
      forall j | 0 <= j < 4 && Admits(grid, bound, Step(p, Deltas()[j]))
        ensures Step(p, Deltas()[j]) in shown + [c] || Step(p, Deltas()[j]) in frontier'
      {
        var n := Step(p, Deltas()[j]);
        if n != c && n in frontier {
          var i :| 0 <= i < |frontier| && frontier[i] == n;
          assert frontier'[i - 1] == n;
        }
      }
    }
  }

  lemma {:induction false} DropHistory(grid: Map, p: Cell, frontier: seq<Cell>, shown: seq<Cell>)
    requires HistoryInv(grid, p, frontier, shown) && |frontier| > 0
    ensures HistoryInv(grid, p, frontier[1..], shown)
  {
    forall i | 0 <= i < |frontier| - 1 && frontier[1..][i] != p
      ensures Reached(grid, shown, frontier[1..][i])
    {
      assert frontier[1..][i] == frontier[i + 1];
    }
  }

  /** What the loop has established once the queue is empty. */
  lemma {:induction false} FloodDone(grid: Map, p: Cell, bound: Bound, marks: map<Cell, bool>, shown: seq<Cell>)
    requires |grid| > 0
    requires MarksInv(grid, p, bound, marks, shown) && QueueInv(grid, marks, [], shown)
    requires HistoryInv(grid, p, [], shown) && CoverInv(grid, bound, marks, shown)
    requires StartInv(grid, p, bound, marks, [], shown) && OrderInv(grid, p, bound, [], shown)
    ensures |shown| > 0 && shown[0] == p
    ensures NoDuplicates(shown)
    ensures forall k :: k in shown ==> (k == p || Admits(grid, bound, k)) && HasRow(grid, k.1)
    ensures forall i :: 0 <= i < |shown| && !IsWall(grid, shown[i]) ==> LitLine(grid, p, shown[..i], shown[i])
    ensures forall i :: 0 <= i < |shown| && shown[i] != p ==> Reached(grid, shown[..i], shown[i])
    ensures forall k, j ::
              (Opened(grid, shown, k) && 0 <= j < 4 && Admits(grid, bound, Step(k, Deltas()[j]))
               && IsWall(grid, Step(k, Deltas()[j]))) ==> Step(k, Deltas()[j]) in shown
    ensures IsWall(grid, p) ==> shown == [p]
    ensures !IsWall(grid, p) ==>
              forall j :: 0 <= j < 4 && Admits(grid, bound, Step(p, Deltas()[j])) ==> Step(p, Deltas()[j]) in shown
    ensures !IsWall(grid, p) ==> [p] + Around(grid, bound, p, 0) <= shown
  {
    forall k, j | Opened(grid, shown, k) && 0 <= j < 4 && Admits(grid, bound, Step(k, Deltas()[j]))
                  && IsWall(grid, Step(k, Deltas()[j]))
      ensures Step(k, Deltas()[j]) in shown
    {
      assert Covered(grid, bound, marks, k);
    }
  }

  /** The player's admitted neighbours are the first tiles shown after
      the player's own: opening the player's cell queues exactly them,
      and each is shown when popped, since a line of length one has no
      inner point to be hidden by. */
  ghost predicate OrderInv(grid: Map, p: Cell, bound: Bound, frontier: seq<Cell>, shown: seq<Cell>)
    requires |grid| > 0
  {
    |shown| > 0 && !IsWall(grid, p) ==>
      var n := Around(grid, bound, p, 0);
      || [p] + n <= shown
      || (|shown| <= |n| && shown == [p] + n[..|shown| - 1] && n[|shown| - 1..] <= frontier)
  }

  /** Showing the head of the queue keeps the order; on the first pop the
      queue afterwards is the player's admitted neighbours. */
  lemma OrderPop(grid: Map, p: Cell, bound: Bound, frontier: seq<Cell>, shown: seq<Cell>, frontier': seq<Cell>)
    requires |grid| > 0 && OrderInv(grid, p, bound, frontier, shown) && |frontier| > 0
    requires |shown| == 0 ==> frontier[0] == p && (IsWall(grid, p) || frontier' == Around(grid, bound, p, 0))
    requires frontier[1..] <= frontier'
    ensures OrderInv(grid, p, bound, frontier', shown + [frontier[0]])
  {
    var n := Around(grid, bound, p, 0);
    if |shown| == 0 && !IsWall(grid, p) {
      FirstPending(p, n, frontier');
    } else if |shown| > 0 && !IsWall(grid, p) {
      if [p] + n <= shown {
        PrefixExtends([p] + n, shown, frontier[0]);
      } else {
        PendingAdvances(p, n, shown, frontier, frontier');
      }
    }
  }

  /** Opening the player's cell queued exactly its neighbours `n`. */
  lemma FirstPending(p: Cell, n: seq<Cell>, frontier': seq<Cell>)
    requires frontier' == n
    ensures || [p] + n <= [p]
            || (1 <= |n| && [p] == [p] + n[..0] && n[0..] <= frontier')
  {
    if |n| == 0 {
      assert [p] + n == [p];
    } else {
      assert n[..0] == [] && n[0..] == n;
    }
  }

  lemma PrefixExtends(a: seq<Cell>, b: seq<Cell>, c: Cell)
    requires a <= b
    ensures a <= b + [c]
  {
    assert (b + [c])[..|a|] == b[..|a|];
  }

  /** The head of the queue was the next pending neighbour `n[k]`. */
  lemma PendingAdvances(p: Cell, n: seq<Cell>, shown: seq<Cell>, frontier: seq<Cell>, frontier': seq<Cell>)
    requires 0 < |shown| <= |n| && shown == [p] + n[..|shown| - 1]
    requires n[|shown| - 1..] <= frontier && frontier[1..] <= frontier'
    ensures var shown' := shown + [frontier[0]];
      || [p] + n <= shown'
      || (|shown'| <= |n| && shown' == [p] + n[..|shown'| - 1] && n[|shown'| - 1..] <= frontier')
  {
    var k := |shown| - 1;
    assert frontier[0] == n[k];
    assert n[..k + 1] == n[..k] + [n[k]];
    assert shown + [frontier[0]] == [p] + n[..k + 1];
    if k + 1 < |n| {
      assert n[k + 1..] == n[k..][1..];
      assert n[k + 1..] <= frontier[1..];
    } else {
      assert n[..k + 1] == n;
    }
  }

  /** A hidden head is never one of the player's pending neighbours. */
  lemma OrderDrop(grid: Map, p: Cell, bound: Bound, marks: map<Cell, bool>, frontier: seq<Cell>, shown: seq<Cell>)
    requires |grid| > 0 && OrderInv(grid, p, bound, frontier, shown) && |frontier| > 0
    requires |shown| == 0 ==> frontier[0] == p
    requires !LineClear(marks, p, frontier[0])
    ensures OrderInv(grid, p, bound, frontier[1..], shown)
  {
    var c := frontier[0];
    var n := Around(grid, bound, p, 0);
    if |shown| == 0 {
      NearLineIsClear(marks, p, c);
    } else if !IsWall(grid, p) && !([p] + n <= shown) {
      assert c == n[|shown| - 1] && c in n;
      NearLineIsClear(marks, p, c);
    }
  }

  /** All six groups of loop facts. */
  ghost predicate FloodInv(grid: Map, p: Cell, bound: Bound, marks: map<Cell, bool>, frontier: seq<Cell>, shown: seq<Cell>)
    requires |grid| > 0
  {
    && MarksInv(grid, p, bound, marks, shown)
    && QueueInv(grid, marks, frontier, shown)
    && HistoryInv(grid, p, frontier, shown)
    && CoverInv(grid, bound, marks, shown)
    && StartInv(grid, p, bound, marks, frontier, shown)
    && OrderInv(grid, p, bound, frontier, shown)
  }

  /** The head of the queue is a wall: it is shown and not expanded. */
  lemma PopWall(grid: Map, p: Cell, bound: Bound, marks: map<Cell, bool>, frontier: seq<Cell>, shown: seq<Cell>)
    requires |grid| > 0 && FloodInv(grid, p, bound, marks, frontier, shown)
    requires |frontier| > 0 && IsWall(grid, frontier[0])
    ensures FloodInv(grid, p, bound, marks, frontier[1..], shown + [frontier[0]])
  {
    PopWallMarks(grid, p, bound, marks, shown, frontier[0]);
    PopQueue(grid, marks, frontier, shown, true);
    PopWallHistory(grid, p, frontier, shown);
    PopStart(grid, p, bound, marks, frontier, shown);
    OrderPop(grid, p, bound, frontier, shown, frontier[1..]);
  }

  /** The head of the queue is floor hidden behind an unlit tile: it is
      dropped and stays marked not visible. */
  lemma PopHidden(grid: Map, p: Cell, bound: Bound, marks: map<Cell, bool>, frontier: seq<Cell>, shown: seq<Cell>)
    requires |grid| > 0 && FloodInv(grid, p, bound, marks, frontier, shown)
    requires |frontier| > 0 && !IsWall(grid, frontier[0]) && !LineClear(marks, p, frontier[0])
    ensures FloodInv(grid, p, bound, marks, frontier[1..], shown)
  {
    PopQueue(grid, marks, frontier, shown, false);
    DropHistory(grid, p, frontier, shown);
    PopStart(grid, p, bound, marks, frontier, shown);
    OrderDrop(grid, p, bound, marks, frontier, shown);
  }

  /** The head of the queue is visible floor: it is shown, marked
      visible, and its neighbours are queued. */
  lemma PopOpen(grid: Map, p: Cell, bound: Bound, marks: map<Cell, bool>, frontier: seq<Cell>, shown: seq<Cell>,
                marks': map<Cell, bool>, frontier': seq<Cell>)
    requires |grid| > 0 && FloodInv(grid, p, bound, marks, frontier, shown)
    requires |frontier| > 0 && HasRow(grid, frontier[0].1) && !IsWall(grid, frontier[0])
    requires LineClear(marks, p, frontier[0])
    requires Opening(grid, bound, frontier[0], marks, marks', frontier[1..], frontier')
    ensures FloodInv(grid, p, bound, marks', frontier', shown + [frontier[0]])
  {
    var c := frontier[0];
    assert c in marks;
    ClearIsLit(grid, p, bound, marks, shown, c);
    OpenMarks(grid, p, bound, marks, shown, c, marks', frontier[1..], frontier');
    OpenQueue(grid, bound, marks, frontier, shown, marks', frontier');
    OpenHistory(grid, p, bound, marks, frontier, shown, marks', frontier');
    OpenCover(grid, bound, marks, shown, c, marks');
    OpenStart(grid, p, bound, marks, frontier, shown, marks', frontier');
    OpenOrder(grid, p, bound, marks, frontier, shown, marks', frontier');
  }

  lemma OpenOrder(grid: Map, p: Cell, bound: Bound, marks: map<Cell, bool>, frontier: seq<Cell>, shown: seq<Cell>,
                  marks': map<Cell, bool>, frontier': seq<Cell>)
    requires |grid| > 0 && OrderInv(grid, p, bound, frontier, shown) && |frontier| > 0
    requires |shown| == 0 ==> frontier == [p] && marks == map[p := true]
    requires Opening(grid, bound, frontier[0], marks, marks', frontier[1..], frontier')
    ensures OrderInv(grid, p, bound, frontier', shown + [frontier[0]])
  {
    if |shown| == 0 {
      assert marks[p := true] == map[p := true];
      FreshAroundStart(grid, bound, p, 0);
    }
    OrderPop(grid, p, bound, frontier, shown, frontier');
  }

  /** One turn of the `while` loop: pop the head of the queue, test its
      line, then show it, drop it, or open it.  It stops the flood when the
      head lies on a row the map does not have. */
  method FloodStep(grid: Map, p: Cell, bound: Bound, marks: map<Cell, bool>, frontier: seq<Cell>, shown: seq<Cell>)
    returns (undefinedRow: Option<int>, marks': map<Cell, bool>, frontier': seq<Cell>, shown': seq<Cell>)
    requires |grid| > 0 && FloodInv(grid, p, bound, marks, frontier, shown) && |frontier| > 0
    ensures undefinedRow.Some? ==>
              !HasRow(grid, undefinedRow.value)
              && (undefinedRow.value == p.1 || (bound == Inclusive && undefinedRow.value == |grid|))
    ensures undefinedRow.None? ==> FloodInv(grid, p, bound, marks', frontier', shown')
    ensures undefinedRow.None? ==>
              |Box(grid) - marks'.Keys| + |frontier'| < |Box(grid) - marks.Keys| + |frontier|
  {
    var c := frontier[0];
    var visible := TestLine(marks, p, c);
    if !HasRow(grid, c.1) {
      assert c in marks;
      return Some(c.1), marks, frontier, shown;
    }
    if CharAt(grid, c.0, c.1) == Some('#') {
      PopWall(grid, p, bound, marks, frontier, shown);
      return None, marks, frontier[1..], shown + [c];
    }
    if !visible {
      PopHidden(grid, p, bound, marks, frontier, shown);
      return None, marks, frontier[1..], shown;
    }
    marks', frontier' := OpenHead(grid, p, bound, marks, frontier, shown);
    undefinedRow, shown' := None, shown + [c];
  }

  /** `visitedTiles[c] = true` for the visible head `c`, then its
      neighbours are queued. */
  method OpenHead(grid: Map, p: Cell, bound: Bound, marks: map<Cell, bool>, frontier: seq<Cell>, shown: seq<Cell>)
    returns (marks': map<Cell, bool>, frontier': seq<Cell>)
    requires |grid| > 0 && FloodInv(grid, p, bound, marks, frontier, shown) && |frontier| > 0
    requires HasRow(grid, frontier[0].1) && !IsWall(grid, frontier[0]) && LineClear(marks, p, frontier[0])
    ensures FloodInv(grid, p, bound, marks', frontier', shown + [frontier[0]])
    ensures |Box(grid) - marks'.Keys| + |frontier'| < |Box(grid) - marks.Keys| + |frontier|
  {
    var c := frontier[0];
    marks', frontier' := Expand(grid, bound, c, marks[c := true], frontier[1..]);
    assert c in marks && marks[c := true].Keys == marks.Keys;
    PopOpen(grid, p, bound, marks, frontier, shown, marks', frontier');
  }

  /** The `while` loop itself: it stops early at a popped cell whose row
      the map does not have, and otherwise ends with the queue empty and
      every loop fact in place. */
  method FloodLoop(grid: Map, p: Cell, bound: Bound)
    returns (undefinedRow: Option<int>, marks: map<Cell, bool>, shown: seq<Cell>)
    requires |grid| > 0
    ensures undefinedRow.Some? ==>
              !HasRow(grid, undefinedRow.value)
              && (undefinedRow.value == p.1 || (bound == Inclusive && undefinedRow.value == |grid|))
    ensures undefinedRow.None? ==> FloodInv(grid, p, bound, marks, [], shown)
  {
    marks := map[p := true];
    var frontier := [p];
    shown := [];
    undefinedRow := None;
    InvInit(grid, p, bound);
    while |frontier| > 0
      invariant FloodInv(grid, p, bound, marks, frontier, shown)
      invariant undefinedRow.None?
      decreases |Box(grid) - marks.Keys| + |frontier|
    {
      undefinedRow, marks, frontier, shown := FloodStep(grid, p, bound, marks, frontier, shown);
      if undefinedRow.Some? {
        return;
      }
    }
  }

  /** The `while` loop of `_findVisibleTiles` from the player's cell `p`,
      enqueuing the cells `bound` admits.  Either some popped cell lies on
      a row the map does not have, or the result is the list of visible
      tiles: the player's cell first, then its admitted neighbours in
      `DELTAS` order, each tile once, every floor tile seen along a line
      of tiles found visible before it, every tile but the player's next
      to an earlier opened tile, and every wall next to an opened tile
      included. */
  method Flood(grid: Map, p: Cell, bound: Bound) returns (r: Visible)
    requires |grid| > 0
    ensures r.RowUndefined? ==> !HasRow(grid, r.row) && (r.row == p.1 || (bound == Inclusive && r.row == |grid|))
    ensures r.Tiles? ==> |r.cells| > 0 && r.cells[0] == p
    ensures r.Tiles? ==> NoDuplicates(r.cells)
    ensures r.Tiles? ==> forall k :: k in r.cells ==> (k == p || Admits(grid, bound, k)) && HasRow(grid, k.1)
    ensures r.Tiles? ==>
              forall i :: 0 <= i < |r.cells| && !IsWall(grid, r.cells[i]) ==> LitLine(grid, p, r.cells[..i], r.cells[i])
    ensures r.Tiles? ==>
              forall i :: 0 <= i < |r.cells| && r.cells[i] != p ==> Reached(grid, r.cells[..i], r.cells[i])
    ensures r.Tiles? ==>
              forall k, j ::
                (Opened(grid, r.cells, k) && 0 <= j < 4 && Admits(grid, bound, Step(k, Deltas()[j]))
                 && IsWall(grid, Step(k, Deltas()[j]))) ==> Step(k, Deltas()[j]) in r.cells
    ensures r.Tiles? && IsWall(grid, p) ==> r.cells == [p]
    ensures r.Tiles? && !IsWall(grid, p) ==>
              forall j :: 0 <= j < 4 && Admits(grid, bound, Step(p, Deltas()[j])) ==> Step(p, Deltas()[j]) in r.cells
    ensures r.Tiles? && !IsWall(grid, p) ==> [p] + Around(grid, bound, p, 0) <= r.cells
  {
    var undefinedRow, marks, shown := FloodLoop(grid, p, bound);
    if undefinedRow.Some? {
      return RowUndefined(undefinedRow.value);
    }
    FloodDone(grid, p, bound, marks, shown);
    return Tiles(shown);
  }

  /** `this.player`'s cell. */
  function PlayerCell(d: Dungeon.Dungeon): Cell
    requires Dungeon.Valid(d) && d.player.Some?
  {
    Dungeon.Position(d.objects[d.player.value])
  }

  /** `_findVisibleTiles()` as written: neighbours are admitted up to
      `maxX` and `maxY` inclusive.  A player standing on floor in the
      bottom row always gets the cell below queued and shown, and the
      wall test on it reads the row `map[maxY]`, which does not exist. */
  method FindVisibleTiles(d: Dungeon.Dungeon) returns (r: Visible)
    requires Dungeon.Valid(d) && d.player.Some?
    ensures var p := PlayerCell(d);
      r.RowUndefined? ==> !HasRow(d.grid, r.row) && (r.row == p.1 || r.row == |d.grid|)
    ensures var p := PlayerCell(d);
      HasRow(d.grid, p.1) && !IsWall(d.grid, p) && 0 <= p.0 <= MaxX(d.grid) && p.1 == |d.grid| - 1
      ==> r.RowUndefined? && r.row == |d.grid|
    ensures var p := PlayerCell(d);
      r.Tiles? ==> forall k :: k in r.cells ==> k == p || (0 <= k.0 <= MaxX(d.grid) && HasRow(d.grid, k.1))
    ensures var p := PlayerCell(d);
      r.Tiles? && !IsWall(d.grid, p) ==> [p] + Around(d.grid, Inclusive, p, 0) <= r.cells
    ensures r.Tiles? ==> NoDuplicates(r.cells)
    ensures var p := PlayerCell(d);
      r.Tiles? ==> forall i :: 0 <= i < |r.cells| && !IsWall(d.grid, r.cells[i]) ==> LitLine(d.grid, p, r.cells[..i], r.cells[i])
    ensures var p := PlayerCell(d);
      r.Tiles? ==> forall i :: 0 <= i < |r.cells| && r.cells[i] != p ==> Reached(d.grid, r.cells[..i], r.cells[i])
    ensures r.Tiles? ==>
      forall k, j ::
        (Opened(d.grid, r.cells, k) && 0 <= j < 4 && Admits(d.grid, Inclusive, Step(k, Deltas()[j]))
         && IsWall(d.grid, Step(k, Deltas()[j]))) ==> Step(k, Deltas()[j]) in r.cells
  {
    var p := PlayerCell(d);
    r := Flood(d.grid, p, Inclusive);
    if HasRow(d.grid, p.1) && !IsWall(d.grid, p) && 0 <= p.0 <= MaxX(d.grid) && p.1 == |d.grid| - 1 {
      var below := Step(p, Deltas()[1]);
      assert below == (p.0, p.1 + 1);
      assert Admits(d.grid, Inclusive, below);
    }
  }

  /** `_findVisibleTiles()` with neighbours admitted only inside the map
      (`x2 < maxX`, `y2 < maxY`): every tile it shows lies in the map, and
      it never reads a missing row. */
  method FindVisibleTilesInGrid(d: Dungeon.Dungeon) returns (r: Visible)
    requires Dungeon.Valid(d) && d.player.Some?
    ensures var p := PlayerCell(d);
      HasRow(d.grid, p.1) <==> r.Tiles?
    ensures var p := PlayerCell(d);
      r.Tiles? ==> forall k :: k in r.cells ==> k == p || InBounds(d.grid, k.0, k.1)
    ensures var p := PlayerCell(d);
      r.Tiles? && !IsWall(d.grid, p) ==>
        forall j :: 0 <= j < 4 && InBounds(d.grid, Step(p, Deltas()[j]).0, Step(p, Deltas()[j]).1)
                    ==> Step(p, Deltas()[j]) in r.cells
    ensures var p := PlayerCell(d);
      r.Tiles? && !IsWall(d.grid, p) ==> [p] + Around(d.grid, Exclusive, p, 0) <= r.cells
    ensures r.Tiles? ==> NoDuplicates(r.cells)
    ensures var p := PlayerCell(d);
      r.Tiles? ==> forall i :: 0 <= i < |r.cells| && !IsWall(d.grid, r.cells[i]) ==> LitLine(d.grid, p, r.cells[..i], r.cells[i])
    ensures var p := PlayerCell(d);
      r.Tiles? ==> forall i :: 0 <= i < |r.cells| && r.cells[i] != p ==> Reached(d.grid, r.cells[..i], r.cells[i])
    ensures r.Tiles? ==>
      forall k, j ::
        (Opened(d.grid, r.cells, k) && 0 <= j < 4 && Admits(d.grid, Exclusive, Step(k, Deltas()[j]))
         && IsWall(d.grid, Step(k, Deltas()[j]))) ==> Step(k, Deltas()[j]) in r.cells
  {
    var p := PlayerCell(d);
    r := Flood(d.grid, p, Exclusive);
  }

  /** The one-row map `"@"` meets the premise under which the inclusive
      bound reads a missing row: the player stands on floor in the bottom
      row. */
  lemma OneRowMapReadsMissingRow()
    ensures var d := Dungeon.Parse(["@"]);
      && d.player.Some? && PlayerCell(d) == (0, 0)
      && HasRow(d.grid, 0) && !IsWall(d.grid, (0, 0)) && 0 <= 0 <= MaxX(d.grid) && 0 == |d.grid| - 1
  {
    var d := Dungeon.Parse(["@"]);
    Dungeon.ParsePlayerIsLastAt(["@"]);
    assert Scan.Holds(["@"], Scan.FirstRowWidth, {'@'}, 0, 0);
  }
}
